=== FILE: README.md ===
# TTLock client and tool layer — a Dafny model

This project models the logic inside `ttlock-mcp`. That repository is a TTLock cloud API client (`TTLockClient`) plus a layer of MCP tools that expose it. Underneath the HTTP and tool-registration plumbing, the model covers three pieces:

- **Token state and the authenticated request path** (`client.dfy`).
  - The state is an optional access/refresh pair.
  - `login` and `refresh` overwrite the pair once their POST resolves.
  - `ensureToken` guards every v3 call.
  - `postForm` spreads the caller's form over `{clientId, accessToken, date}`.
  - `assertNoTTError` turns a nonzero numeric `errcode` into an error that carries the code.
- **Domain operations** (`endpoints.dfy`). Each `TTLockClient` method is a fixed mapping from its arguments to an endpoint and a form, with its own defaults. The partner of this mapping is `Decode`, which reads a form back into the operation it names. The round trip `Decode(EndpointOf(op), FormOf(op)) == Some(Normalize(op))` pins down which arguments default and which are omitted.
- **Tool-layer logic** (`server.dfy`, `batch.dfy`).
  - `ensureAuth` is a three-way guard: already authenticated, auto-login, or fail.
  - `withAuth` runs that guard once before the handler.
  - `cards.clear` has a `confirm` guard.
  - `cards.bulkAdd` and `cards.bulkDelete` share one loop, modelled as a single generic left fold (`Batch.Fold`). It has two outcomes: a completed report, or an aborted report.

Supporting modules:

- `wrappers.dfy`: `Option`/`Result`.
- `json.dfy`: decoded JSON values and JavaScript truthiness.
- `decimal.dfy`: printing integers for the `TTLock error <code>` message, with a parse-back round trip.
- `errors.dfy`: the error kinds, and the text a bulk handler records for a failure.

The network is a parameter:

- Every remote call is recorded as a `Post(Request)` event.
- The caller supplies what the transport answered: `Failed(cause)` or `Received(body)`.
- `Call(now, response)` also carries the `Date.now()` reading for an authenticated call.
- A bulk run receives `calls: nat -> Call`, the environment of item i's call.
- `setTimeout` becomes a `Sleep(ms)` event in the same trace.

Four behaviours of the code worth knowing:

- **Caller keys win.** In the outgoing form, the caller's keys win over the injected `clientId`, `accessToken` and `date`, because `...form` is spread last (src/ttlock.ts:77-82).
- **Token exchanges ignore `errcode`.** `login` and `refresh` never look at `errcode`. An error-coded body therefore "succeeds" and overwrites both tokens with whatever the body holds, usually `undefined` (src/ttlock.ts:47-51, 62-66).
- **Default error message.** When there is no usable `errmsg`, the message is `TTLock error <code>`.
- **Sleep after the last item.** The bulk loop also sleeps after the last item, whenever `delayMs` is nonzero (src/server.ts:159, 201).

In addition, `listLocks` applies no defaults of its own. The page defaults of 1 and 50 for `locks.list` come from the tool's input schema.

## Model

| member | source | states |
|---|---|---|
| Client.CheckNoRemoteError | src/ttlock.ts:15-22 | a body is rejected iff its `errcode` is a number other than 0; the error carries that code; any other body is returned unchanged |
| Client.RemoteErrorCarriesCode | src/ttlock.ts:17-19 | the raised error's code is the body's `errcode`; its message is the non-empty `errmsg`, else `TTLock error ` followed by text that parses back to the code |
| Client.ZeroCodeIsSuccess | src/ttlock.ts:16 | a zero, absent or non-numeric `errcode` never raises |
| Client.DefaultMessage | src/ttlock.ts:17 | the fallback message starts with `TTLock error ` and the rest reads back as the code |
| Decimal.IntRoundTrip | src/ttlock.ts:17 | printing an integer (below 1e21 in magnitude) in a template literal loses nothing: the printed text parses back to the integer |
| Client.AuthedIffNonEmptyToken | src/ttlock.ts:34-36 | with a string access token, `isAuthed` is true iff the token is non-empty |
| Client.Exchange | src/ttlock.ts:47-51 | a token exchange posts exactly once; a transport failure leaves the pair unchanged; a received body replaces both tokens together with its `access_token`/`refresh_token` fields |
| Client.Login | src/ttlock.ts:39-52 | login posts the credential exchange once and fails iff the transport fails, with exactly that transport error; a failure leaves the tokens unchanged, and a received body replaces both tokens with its `access_token` and `refresh_token` fields, whatever its `errcode` |
| Client.LoginIgnoresErrorCode | src/ttlock.ts:47-51 | an error-coded login body without tokens still succeeds, and leaves the client unauthenticated |
| Client.LoginAuthenticates | src/ttlock.ts:47-51 | after a login whose body holds a non-empty string access token, the client is authenticated |
| Client.Refresh | src/ttlock.ts:54-67 | without a truthy refresh token, refresh fails with the not-authenticated error before any request and leaves the tokens unchanged; otherwise it posts the held refresh token once and fails iff the transport fails, with exactly that transport error and the tokens unchanged; a received body replaces both tokens with its `access_token` and `refresh_token` fields |
| Client.RefreshRenewsSession | src/ttlock.ts:54-67 | after a login that returned a non-empty refresh token, refresh posts exactly that token; an answer with a non-empty access token succeeds and authenticates the client, and the held refresh token becomes the answer's |
| Client.FreshClientCannotRefresh | src/ttlock.ts:54-55 | a newly constructed client's refresh fails with the not-authenticated error and issues nothing |
| Client.EnsureToken | src/ttlock.ts:69-71 | passes iff an access token is held; otherwise fails with the not-authenticated error |
| Client.Overlay | src/ttlock.ts:77-82 | the merged form holds both key sets; a caller key keeps the caller's value; a base key survives only where the caller has no such key |
| Client.PostForm | src/ttlock.ts:74-88 | without a token it fails before any request; otherwise it posts once; a transport failure is returned as that transport error, and a received body yields exactly what `assertNoTTError` makes of it (the remote error for an error-coded body, else the body verbatim); the tokens never change |
| Client.SentForm | src/ttlock.ts:77-82 | the posted form has the caller's keys plus `clientId`, `accessToken` and `date`; the caller's values win; the injected values appear only where the caller has no such key |
| Endpoints.Invoke | src/ttlock.ts:91-153 | each domain method posts once to its own endpoint when authenticated, and nothing otherwise; the sent form holds the method's keys plus `clientId`, the held access token and the call's `date`, and decodes to the operation with its defaults filled in; the result is the transport error, or what `assertNoTTError` makes of the received body |
| Endpoints.FormOf | src/ttlock.ts:91-153 | every domain method's form reads back as the operation that produced it, with only the defaulted arguments filled in, and holds none of the `clientId`, `accessToken` and `date` keys that `postForm` injects |
| Endpoints.LockListForm | src/ttlock.ts:91-93 | `listLocks` sends exactly the page fields it was given, with no defaults applied |
| Endpoints.LockIdForm | src/ttlock.ts:95-139 | `getLockDetail`, `unlock`, `lock` (95-105) and `clearCards` (135-139) send only the lock id, which each endpoint reads back as its own operation |
| Endpoints.CardListForm | src/ttlock.ts:108-110 | `listCards` sends exactly the lock id, page number and page size, with the page defaults 1 and 50 |
| Endpoints.CardAddForm | src/ttlock.ts:112-127 | `addCardViaGateway` sends exactly lock id, card number, both validity bounds (defaulting to 0), `addType` 2, and the name only when given |
| Endpoints.CardDeleteForm | src/ttlock.ts:130-133 | `deleteCard` sends exactly lock id, card id and the delete type, defaulting to 2 |
| Endpoints.RecordListForm | src/ttlock.ts:142-153 | `listUnlockRecords` sends exactly lock id and the page fields (defaults 1 and 50), plus each date filter only when supplied |
| Endpoints.DecodeIgnoresInjected | src/ttlock.ts:77-82 | overlaying any `clientId`/`accessToken`/`date` fields on a domain form leaves the operation it names unchanged |
| Endpoints.NormalizeIsInvisible | src/ttlock.ts:108-132 | filling in the defaults (page 1, size 50, dates 0, delete type 2) sends exactly the same form, and filling them in twice changes nothing |
| Endpoints.SameRequestIffSameNormalForm | src/ttlock.ts:91-153 | two calls send the same request iff they agree once defaults are filled in |
| Endpoints.PathsDistinct | src/ttlock.ts:91-153 | no two endpoints share a path |
| Endpoints.AddCardDatesDefaultToZero | src/ttlock.ts:119-126 | an omitted start date is sent as 0, the same as an explicit 0; `addType` is always 2 |
| Endpoints.AddCardKeepsExplicitDates | src/ttlock.ts:123-124 | explicit validity bounds are sent as given |
| Endpoints.RecordDatesAreOmitted | src/ttlock.ts:149-151 | access-log date filters are present iff supplied, so an omitted filter differs from a 0 filter |
| Endpoints.AddAndDeleteDefaults | src/ttlock.ts:119-132 | adding card 123456 to lock 100 with no name or dates sends both dates as 0 and addType 2; deleting card 7 with no delete type sends deleteType 2 |
| Server.RemoteFailureIsRecorded | src/server.ts:146-148 | a bulk item whose call is answered with a nonzero `errcode` is recorded as failed, with the same message `assertNoTTError` put in the thrown error |
| Server.EnsureAuth | src/server.ts:20-29 | issues a request iff not authenticated and both default credentials are set, and that request is the login; fails iff not authenticated and either credentials are missing or the login's transport fails, the latter with exactly that transport error; a received login body sets both tokens from its fields, and otherwise the tokens are unchanged |
| Server.WithAuth | src/server.ts:33-38 | the guard runs once; a failing guard skips the handler and returns its error; otherwise the handler runs on the guard's tokens after the guard's events |
| Server.GuardInvisibleWhenAuthed | src/server.ts:21 | when already authenticated, a guarded tool is exactly its handler |
| Server.GuardCanPassUnauthenticated | src/server.ts:22-24 | an auto-login whose body holds no token passes the guard yet leaves the client unauthenticated |
| Server.UnauthenticatedToolsIssueNoCall | src/server.ts:33-38 | after such a guard, the tool's call fails at `ensureToken` and only the login was posted |
| Server.AutoLoginThenCall | src/server.ts:22-24 | when the auto-login returns a non-empty access token, the client is authenticated with the login's tokens, and the tool's call follows the login and carries that token |
| Server.ToolCall | src/server.ts:70-230 | a single-call tool (`locks.*` at 71-96, `cards.list` at 99-109, `cards.add` at 111-123, `cards.delete` at 167-177, `records.list` at 218-230) is the domain call when authenticated; it fails without any request when neither a token nor default credentials exist; it makes at most two posts |
| Server.ToolsKeepSession | src/server.ts:71-96 | once authenticated, a tool call leaves the tokens and the authenticated state unchanged |
| Server.BulkRun | src/server.ts:141-163 | one entry per item in input order, keyed by the item id and reflecting its own outcome; completed iff continuing on error or nothing fails; a completed run posts every item's call in order, each followed by the pause; an aborted report names the first failing item, every earlier item succeeded, and nothing follows the failing call |
| Server.BulkAddLoop | src/server.ts:141-163 | the cards.bulkAdd loop reports per card number, with each card's outcome that of its add call; it completes iff continuing on error or every add succeeded; a completed run makes every add call in order with the pause after each, an aborted one stops right after the failing card's call |
| Server.AddOutcomesAreAddCalls | src/server.ts:142-144 | item i of `cards.bulkAdd` is exactly the `addCardViaGateway` call for card i, with its number, name and dates |
| Server.BulkAdd | src/server.ts:125-165 | cards.bulkAdd fails iff the guard fails; when the guard passes, the loop runs on the guard's tokens after the guard's events, and its report is the tool's; when already authenticated it is exactly its loop |
| Server.BulkDeleteLoop | src/server.ts:189-204 | the cards.bulkDelete loop reports per card id, with each id's outcome that of its delete call; it completes iff continuing on error or every delete succeeded; a completed run makes every delete call in order with the pause after each, an aborted one stops right after the failing id's call |
| Server.DeleteOutcomesAreDeleteCalls | src/server.ts:190-192 | item i of `cards.bulkDelete` is exactly the `deleteCard` call for id i with the request's delete type |
| Server.BulkDelete | src/server.ts:179-206 | cards.bulkDelete fails iff the guard fails; when the guard passes, the loop runs on the guard's tokens after the guard's events, and its report is the tool's; when already authenticated it is exactly its loop |
| Server.ClearHandler | src/server.ts:211-214 | without `confirm`, the refusal with no request and no token change; with it, exactly the clear call's events, the tokens unchanged, and the reply `Cleared(body)` when the call returned `body` or the call's error when it failed; a cleared body implies `confirm` |
| Server.CardsClear | src/server.ts:208-215 | without `confirm`, only the guard's events occur and the reply is the refusal; when the guard passes, the handler runs on the guard's tokens after the guard's events and its reply is the tool's; the remote clear is reached only with `confirm` |
| Server.ClearOnlyWhenConfirmed | src/server.ts:208-215 | with a session held, `cards.clear` posts once to `/v3/identityCard/clear` for the given lock iff `confirm` is set, and reports the cards cleared iff `confirm` is set and the service accepted the call; without `confirm` it replies with the refusal |
| Batch.RunBatch | src/server.ts:141-163 | completed iff continuing on error or no failure; a completed run has `total = \|items\|`, `success + failure = total`, `success` equal to the ok count, and results equal to the per-item entries; an aborted run stops at the first failing item k (0-based): `attempted = k + 1`, `abortedOn` is item k's id, `error` is item k's message, and the results are the entries of items 0..k; its events end with item k's call, with no pause after it |
| Batch.Advance | src/server.ts:143-159 | one iteration: a stopped run is unchanged; otherwise the item's entry is appended and its events recorded; the run stops iff the item failed and errors do not continue; only an item that does not stop the run is followed by the pause |
| Batch.Fold | src/server.ts:142-160 | the loop only appends to the results and events, a stopped run stays unchanged, and a run that never stopped has one entry per item |
| Batch.Pause | src/server.ts:159 | the pause after an item is one `Sleep(delayMs)` when the delay is nonzero, and nothing otherwise |
| Batch.EntryOf | src/server.ts:145-148 | an item's entry carries its id, is ok iff the call did not throw, and holds `e?.message ?? String(e)` exactly when it failed |
| Batch.FirstFailure | src/server.ts:146-157 | locates the first failing item: everything before it passed, and it failed |
| Batch.FoldAborted | src/server.ts:149-157 | once a run has stopped, no later item is attempted or recorded |
| Batch.FoldRuns | src/server.ts:142-160 | without a stopping failure every item is attempted in order; its entry is appended, and its events are followed by the pause |
| Batch.FoldAborts | src/server.ts:146-157 | an abort-on-error run stops right after the first failure; it has recorded that failure and everything before it |
| Batch.AbortedEntries | src/server.ts:149-157 | an aborted run holds one entry per attempted item: all but the last succeeded with the items' ids, and the last is the failing item with the abort's message |
| Batch.AbortedIsPrefixOfContinued | src/server.ts:142-158 | an aborted run's results and events are prefixes of those of the continue-on-error run over the same outcomes |
| Batch.PolicyIrrelevantWithoutFailure | src/server.ts:149 | when no item fails, both policies give the same report and events |
| Batch.CountOkEntries | src/server.ts:161-162 | the ok count equals the number of items iff no item failed |
| Batch.CompletedCountsFailures | src/server.ts:161-163 | a continue-on-error run always completes, and reports at least one failure iff some item failed |
| Batch.ThrottledSleeps | src/server.ts:159 | a full pass sleeps once per item, including the last, iff the delay is nonzero |
| Batch.RunSleeps | src/server.ts:159 | a completed run sleeps once per item and an aborted run once per item before the failing one, iff the delay is nonzero; none follows the abort |

## Left out

- The axios transport, HTTP status handling and timeouts. A call's outcome is the `Response` parameter: a failure, or a decoded body.
- `qs.stringify` URL-encoding. A form is the map of its present keys. That the serializer drops `undefined` values is taken as given: an omitted optional argument is simply an absent key.
- `Date.now()`: the timestamp is the `now` field of `Call`.
- Real waiting in `setTimeout`: a `Sleep(delayMs)` event is emitted instead.
- MCP server registration, the zod input schemas, `textResult` JSON formatting and the stdio bootstrap (src/server.ts:1-17, 235-239). Defaults that the schemas supply are therefore inputs here:
  - page 1 and size 50 for `locks.list`;
  - `delayMs` 0 and its range 0..5000;
  - `continueOnError` true;
  - delete type 2 for `cards.bulkDelete`;
  - the non-empty card lists.
- The `ping`, `auth.login` and `auth.refresh` tools. `ping` only echoes its input (src/server.ts:45-49). `auth.login` and `auth.refresh` only call `login`/`refresh`, which are modelled, and reply `{ok: true}`.
- Configuration loading in src/env.ts. Client identity and base URL are the `Config` parameter. The optional default login is the `Credentials` parameter.
- Concurrent bulk runs racing on the token state. The code has no concurrency logic.
- JavaScript numbers are modelled as unbounded integers. A fractional, `NaN` or `-0` `errcode` is not represented. Neither is the rounding of a decoded number beyond 2^53: the model keeps such a code exact.
- Decimal.IntToString: prints every integer as plain digits. JavaScript switches to exponent notation from 1e21 in magnitude (`${1e21}` is `1e+21`), so for such codes the default message differs.
- Client.CheckNoRemoteError: an `errmsg` that is truthy but not a string is treated as absent. JavaScript would stringify it into the message instead.
- Client.Exchange: a decoded body that is not an object is not represented. For example, `data.access_token` on a `null` body would throw.
- Errors.Error: `String(e)` of an error object is rendered as `Error: <message>`, without the name of a subclass. This text is only used for thrown values that have no message.
- Batch.RunBatch: the completed report's `failure` is computed as `results.length - success` for both handlers. `cards.bulkDelete` writes `cardIds.length - success`; on completion the two lengths are equal.

=== FILE: batch.dfy ===
/**
 * The loop shared by the bulk card handlers, as a left fold over the items.
 *
 * Each item has already been turned into a `Step`: the events its single attempt caused and
 * the error it threw, if any. The fold decides which steps are reached, records one entry per
 * reached item, and emits a sleep after each item that did not stop the run.
 */
module Batch {
  import opened Wrappers
  import opened Errors
  import opened Client

  /** One item's attempt: the item's id, the events the attempt caused, and what it threw. */
  datatype Step<K> = Step(id: K, events: seq<Event>, failure: Option<Error>)

  /** One element of the `results` array: `{id, ok}` or `{id, ok: false, error}`. */
  datatype Entry<K> = Entry(id: K, ok: bool, error: Option<string>)

  /** The item that stopped an abort-on-error run, and its message. */
  datatype Abort<K> = Abort(id: K, error: string)

  /** The loop state: results so far, events so far, and whether the run has stopped. */
  datatype Progress<K> = Progress(results: seq<Entry<K>>, trace: seq<Event>, abort: Option<Abort<K>>)

  /** The two shapes a bulk handler returns. */
  datatype Report<K> =
    | Completed(lockId: int, total: nat, success: nat, failure: nat, results: seq<Entry<K>>)
    | Aborted(lockId: int, attempted: nat, abortedOn: K, error: string, results: seq<Entry<K>>)

  /** A report together with everything the run did. */
  datatype Run<K> = Run(report: Report<K>, trace: seq<Event>)

  /** `if (delayMs) await sleep(delayMs)`: a zero delay is skipped. */
  function Pause(delayMs: int): (r: seq<Event>)
    ensures |r| <= 1
    ensures r != [] <==> delayMs != 0
    ensures r != [] ==> r[0] == Sleep(delayMs)
  {
    if delayMs != 0 then [Sleep(delayMs)] else []
  }

  /** The entry recorded for an attempted item. */
  function EntryOf<K>(s: Step<K>): (e: Entry<K>)
    ensures e.id == s.id
    ensures e.ok <==> s.failure.None?
    ensures e.error.Some? <==> s.failure.Some?
    ensures s.failure.Some? ==> e.error.value == ErrorText(s.failure.value)
  {
    match s.failure
    case None => Entry(s.id, true, None)
    case Some(e) => Entry(s.id, false, Some(ErrorText(e)))
  }

  /** One loop iteration. A stopped run attempts nothing more. */
  function Advance<K>(p: Progress<K>, s: Step<K>, delayMs: int, continueOnError: bool): (r: Progress<K>)
    ensures p.abort.Some? ==> r == p
    ensures p.abort.None? ==> r.results == p.results + [EntryOf(s)]
    ensures p.abort.None? ==> (r.abort.Some? <==> s.failure.Some? && !continueOnError)
    ensures p.abort.None? && r.abort.Some? ==>
              r.trace == p.trace + s.events && r.abort.value == Abort(s.id, ErrorText(s.failure.value))
    ensures p.abort.None? && r.abort.None? ==> r.trace == p.trace + s.events + Pause(delayMs)
  {
    if p.abort.Some? then p
    else
      var results := p.results + [EntryOf(s)];
      var trace := p.trace + s.events;
      if s.failure.Some? && !continueOnError then
        Progress(results, trace, Some(Abort(s.id, ErrorText(s.failure.value))))
      else
        Progress(results, trace + Pause(delayMs), None)
  }

  /**
   * The loop over all items. It only ever appends to the results and the events, a stopped
   * run stays as it is, and a run that never stopped has one entry per item.
   */
  function Fold<K>(p: Progress<K>, steps: seq<Step<K>>, delayMs: int, continueOnError: bool): (r: Progress<K>)
    ensures p.results <= r.results && p.trace <= r.trace
    ensures |r.results| <= |p.results| + |steps|
    ensures p.abort.Some? ==> r == p
    ensures r.abort.None? ==> |r.results| == |p.results| + |steps|
    decreases |steps|
  {
    if |steps| == 0 then p
    else
      var q := Advance(p, steps[0], delayMs, continueOnError);
      var r := Fold(q, steps[1..], delayMs, continueOnError);
      assert p.results <= q.results && p.trace <= q.trace;
      r
  }

  /** `results.filter(r => r.ok).length`. */
  function CountOk<K>(rs: seq<Entry<K>>): (n: nat)
    ensures n <= |rs|
    decreases |rs|
  {
    if |rs| == 0 then 0 else (if rs[0].ok then 1 else 0) + CountOk(rs[1..])
  }

  /** Runs the loop from empty results and packs the final state into the handler's reply. */
  function RunBatch<K>(lockId: int, steps: seq<Step<K>>, delayMs: int, continueOnError: bool): (r: Run<K>)
    ensures r.report.lockId == lockId
    ensures r.report.Completed? <==> (continueOnError || NoFailure(steps))
    ensures r.report.Completed? ==>
              && r.report.results == Entries(steps)
              && r.report.total == |steps|
              && r.report.success == CountOk(r.report.results)
              && r.report.success + r.report.failure == r.report.total
              && r.trace == Throttled(steps, delayMs)
    ensures r.report.Aborted? ==>
              var k := FirstFailure(steps);
              && k < |steps|
              && r.report.attempted == k + 1
              && r.report.abortedOn == steps[k].id
              && r.report.error == ErrorText(steps[k].failure.value)
              && r.report.results == Entries(steps[..k + 1])
              && r.trace == Throttled(steps[..k], delayMs) + steps[k].events
  {
    var p := Fold(Progress([], [], None), steps, delayMs, continueOnError);
    if continueOnError || NoFailure(steps) then
      FoldFromStartRuns(steps, delayMs, continueOnError);
      Finish(lockId, |steps|, p)
    else
      FoldFromStartAborts(steps, delayMs);
      Finish(lockId, |steps|, p)
  }

  /** The reply built from the final loop state. */
  function Finish<K>(lockId: int, total: nat, p: Progress<K>): (r: Run<K>)
    ensures r.trace == p.trace && r.report.results == p.results && r.report.lockId == lockId
    ensures r.report.Completed? <==> p.abort.None?
  {
    match p.abort
    case None =>
      var success := CountOk(p.results);
      Run(Completed(lockId, total, success, |p.results| - success, p.results), p.trace)
    case Some(a) =>
      Run(Aborted(lockId, |p.results|, a.id, a.error, p.results), p.trace)
  }

  // ---------------------------------------------------------------------------
  // Reference definitions the fold is measured against
  // ---------------------------------------------------------------------------

  /** One entry per item, in input order, each reflecting that item's own outcome. */
  function Entries<K>(steps: seq<Step<K>>): (es: seq<Entry<K>>)
    ensures |es| == |steps|
    ensures forall i :: 0 <= i < |steps| ==> es[i] == EntryOf(steps[i])
  {
    seq(|steps|, i requires 0 <= i < |steps| => EntryOf(steps[i]))
  }

  /** Each item's events followed by the pause. */
  function Throttled<K>(steps: seq<Step<K>>, delayMs: int): seq<Event>
    decreases |steps|
  {
    if |steps| == 0 then [] else steps[0].events + Pause(delayMs) + Throttled(steps[1..], delayMs)
  }

  predicate NoFailure<K>(steps: seq<Step<K>>)
  {
    forall i :: 0 <= i < |steps| ==> steps[i].failure.None?
  }

  /** The 0-based index of the first failing item, or `|steps|` when none fails. */
  function FirstFailure<K>(steps: seq<Step<K>>): (k: nat)
    ensures k <= |steps|
    ensures NoFailure(steps[..k])
    ensures k < |steps| ==> steps[k].failure.Some?
    decreases |steps|
  {
    if |steps| == 0 then 0
    else if steps[0].failure.Some? then 0
    else
      var k := FirstFailure(steps[1..]);
      NoFailureCons(steps, k);
      k + 1
  }

  /** Number of sleeps in a trace. */
  function Sleeps(trace: seq<Event>): nat
    decreases |trace|
  {
    if |trace| == 0 then 0 else (if trace[0].Sleep? then 1 else 0) + Sleeps(trace[1..])
  }

  /** No item's own attempt sleeps: only the loop does. */
  predicate AttemptsDoNotSleep<K>(steps: seq<Step<K>>)
  {
    forall i :: 0 <= i < |steps| ==> Sleeps(steps[i].events) == 0
  }

  // ---------------------------------------------------------------------------
  // Fold lemmas
  // ---------------------------------------------------------------------------

  /** A passing first item in front of a passing run is a passing run. */
  lemma NoFailureCons<K>(steps: seq<Step<K>>, k: nat)
    requires 0 < |steps| && k < |steps|
    requires steps[0].failure.None?
    requires NoFailure(steps[1..][..k])
    ensures NoFailure(steps[..k + 1])
  {
    var pre := steps[..k + 1];
    var rest := steps[1..][..k];
    forall i | 0 <= i < |pre| ensures pre[i].failure.None? {
      if i > 0 {
        assert pre[i] == rest[i - 1];
      }
    }
  }

  /** Dropping the first item of a passing run leaves a passing run. */
  lemma NoFailureTail<K>(steps: seq<Step<K>>)
    requires 0 < |steps| && NoFailure(steps)
    ensures NoFailure(steps[1..])
  {
    var rest := steps[1..];
    forall i | 0 <= i < |rest| ensures rest[i].failure.None? {
      assert rest[i] == steps[i + 1];
    }
  }

  lemma NoFailureIffNoFirstFailure<K>(steps: seq<Step<K>>)
    ensures NoFailure(steps) <==> FirstFailure(steps) == |steps|
  {
    assert steps[..|steps|] == steps;
  }

  lemma EntriesCons<K>(steps: seq<Step<K>>)
    requires |steps| > 0
    ensures Entries(steps) == [EntryOf(steps[0])] + Entries(steps[1..])
  {
  }

  /** Once stopped, the loop attempts nothing and records nothing. */
  lemma {:induction false} FoldAborted<K>(p: Progress<K>, steps: seq<Step<K>>, delayMs: int, continueOnError: bool)
    requires p.abort.Some?
    ensures Fold(p, steps, delayMs, continueOnError) == p
    decreases |steps|
  {
    if |steps| > 0 {
      FoldAborted(p, steps[1..], delayMs, continueOnError);
    }
  }

  /** An item that does not stop the loop appends its entry, its events and the pause. */
  lemma AdvancePasses<K>(p: Progress<K>, s: Step<K>, delayMs: int, continueOnError: bool)
    requires p.abort.None?
    requires continueOnError || s.failure.None?
    ensures Advance(p, s, delayMs, continueOnError)
            == Progress(p.results + [EntryOf(s)], p.trace + s.events + Pause(delayMs), None)
  {
  }

  lemma RunsAppend<K>(p: Progress<K>, steps: seq<Step<K>>, delayMs: int)
    requires |steps| > 0
    ensures p.results + [EntryOf(steps[0])] + Entries(steps[1..]) == p.results + Entries(steps)
    ensures p.trace + steps[0].events + Pause(delayMs) + Throttled(steps[1..], delayMs)
            == p.trace + Throttled(steps, delayMs)
  {
    EntriesCons(steps);
  }

  /** Without a stopping failure the loop attempts every item and records every outcome. */
  lemma {:induction false} FoldRuns<K>(p: Progress<K>, steps: seq<Step<K>>, delayMs: int, continueOnError: bool)
    requires p.abort.None?
    requires continueOnError || NoFailure(steps)
    ensures Fold(p, steps, delayMs, continueOnError)
            == Progress(p.results + Entries(steps), p.trace + Throttled(steps, delayMs), None)
    decreases |steps|
  {
    if |steps| == 0 {
      assert p.results + Entries(steps) == p.results;
      assert p.trace + Throttled(steps, delayMs) == p.trace;
    } else {
      if !continueOnError {
        NoFailureTail(steps);
      }
      AdvancePasses(p, steps[0], delayMs, continueOnError);
      var q := Advance(p, steps[0], delayMs, continueOnError);
      FoldRuns(q, steps[1..], delayMs, continueOnError);
      RunsAppend(p, steps, delayMs);
    }
  }

  /** The abort-on-error loop after item k, when items before k passed and item k failed. */
  function AbortedAt<K>(p: Progress<K>, steps: seq<Step<K>>, delayMs: int, k: nat): Progress<K>
    requires k < |steps| && steps[k].failure.Some?
  {
    Progress(p.results + Entries(steps[..k + 1]),
             p.trace + Throttled(steps[..k], delayMs) + steps[k].events,
             Some(Abort(steps[k].id, ErrorText(steps[k].failure.value))))
  }

  /** A failing first item stops an abort-on-error loop at once. */
  lemma FoldStopsAtHead<K>(p: Progress<K>, steps: seq<Step<K>>, delayMs: int)
    requires p.abort.None?
    requires |steps| > 0 && steps[0].failure.Some?
    ensures Fold(p, steps, delayMs, false) == AbortedAt(p, steps, delayMs, 0)
  {
    var q := Advance(p, steps[0], delayMs, false);
    FoldAborted(q, steps[1..], delayMs, false);
    assert Entries(steps[..1]) == [EntryOf(steps[0])];
    assert Throttled(steps[..0], delayMs) == [];
    assert p.trace + [] + steps[0].events == p.trace + steps[0].events;
  }

  lemma EntriesShift<K>(steps: seq<Step<K>>, k: nat)
    requires 0 < k < |steps|
    ensures Entries(steps[..k + 1]) == [EntryOf(steps[0])] + Entries(steps[1..][..k])
  {
    var done := steps[..k + 1];
    assert done[1..] == steps[1..][..k];
    EntriesCons(done);
  }

  lemma ThrottledShift<K>(steps: seq<Step<K>>, delayMs: int, k: nat)
    requires 0 < k <= |steps|
    ensures Throttled(steps[..k], delayMs) == steps[0].events + Pause(delayMs) + Throttled(steps[1..][..k - 1], delayMs)
  {
    var before := steps[..k];
    assert before[0] == steps[0] && before[1..] == steps[1..][..k - 1];
  }

  /** Passing the first item and then stopping at item k-1 of the rest is stopping at item k. */
  lemma AbortedAtShift<K>(p: Progress<K>, steps: seq<Step<K>>, delayMs: int, k: nat)
    requires p.abort.None?
    requires 0 < k < |steps| && steps[k].failure.Some? && steps[0].failure.None?
    ensures AbortedAt(Advance(p, steps[0], delayMs, false), steps[1..], delayMs, k - 1) == AbortedAt(p, steps, delayMs, k)
  {
    var q := Advance(p, steps[0], delayMs, false);
    assert q.results == p.results + [EntryOf(steps[0])];
    assert q.trace == p.trace + steps[0].events + Pause(delayMs);
    var rest := steps[1..];
    assert rest[k - 1] == steps[k];
    EntriesShift(steps, k);
    ThrottledShift(steps, delayMs, k);
    assert q.results + Entries(rest[..k]) == p.results + Entries(steps[..k + 1]);
    assert q.trace + Throttled(rest[..k - 1], delayMs) + rest[k - 1].events
           == p.trace + Throttled(steps[..k], delayMs) + steps[k].events;
  }

  /** In an abort-on-error run the loop stops right after the first failure and records it. */
  lemma {:induction false} FoldAborts<K>(p: Progress<K>, steps: seq<Step<K>>, delayMs: int, k: nat)
    requires p.abort.None?
    requires k < |steps| && NoFailure(steps[..k]) && steps[k].failure.Some?
    ensures Fold(p, steps, delayMs, false) == AbortedAt(p, steps, delayMs, k)
    decreases |steps|
  {
    if k == 0 {
      FoldStopsAtHead(p, steps, delayMs);
    } else {
      assert steps[..k][0] == steps[0];
      var q := Advance(p, steps[0], delayMs, false);
      assert steps[1..][..k - 1] == steps[..k][1..];
      NoFailureTail(steps[..k]);
      FoldAborts(q, steps[1..], delayMs, k - 1);
      AbortedAtShift(p, steps, delayMs, k);
    }
  }

  /** Started from empty results, a run without a stopping failure records every item. */
  lemma FoldFromStartRuns<K>(steps: seq<Step<K>>, delayMs: int, continueOnError: bool)
    requires continueOnError || NoFailure(steps)
    ensures Fold(Progress([], [], None), steps, delayMs, continueOnError)
            == Progress(Entries(steps), Throttled(steps, delayMs), None)
  {
    var start: Progress<K> := Progress([], [], None);
    FoldRuns(start, steps, delayMs, continueOnError);
    assert start.results + Entries(steps) == Entries(steps);
    assert start.trace + Throttled(steps, delayMs) == Throttled(steps, delayMs);
  }

  /** Started from empty results, an abort-on-error run with a failure stops at the first one. */
  lemma FoldFromStartAborts<K>(steps: seq<Step<K>>, delayMs: int)
    requires !NoFailure(steps)
    ensures FirstFailure(steps) < |steps|
    ensures var k := FirstFailure(steps);
            Fold(Progress([], [], None), steps, delayMs, false)
            == Progress(Entries(steps[..k + 1]), Throttled(steps[..k], delayMs) + steps[k].events,
                        Some(Abort(steps[k].id, ErrorText(steps[k].failure.value))))
  {
    var start: Progress<K> := Progress([], [], None);
    NoFailureIffNoFirstFailure(steps);
    var k := FirstFailure(steps);
    FoldAborts(start, steps, delayMs, k);
    assert start.results + Entries(steps[..k + 1]) == Entries(steps[..k + 1]);
    assert start.trace + Throttled(steps[..k], delayMs) + steps[k].events
           == Throttled(steps[..k], delayMs) + steps[k].events;
  }

  // ---------------------------------------------------------------------------
  // Report lemmas
  // ---------------------------------------------------------------------------

  /** An aborted run recorded k-1 successes and then the failing item k (1-based). */
  lemma AbortedEntries<K>(lockId: int, steps: seq<Step<K>>, delayMs: int)
    requires RunBatch(lockId, steps, delayMs, false).report.Aborted?
    ensures var rep := RunBatch(lockId, steps, delayMs, false).report;
            && |rep.results| == rep.attempted
            && (forall j :: 0 <= j < rep.attempted - 1 ==> rep.results[j].ok && rep.results[j].id == steps[j].id)
            && !rep.results[rep.attempted - 1].ok
            && rep.results[rep.attempted - 1].id == rep.abortedOn
            && rep.results[rep.attempted - 1].error == Some(rep.error)
  {
    var k := FirstFailure(steps);
    forall j | 0 <= j < k ensures steps[j].failure.None? {
      assert steps[..k][j] == steps[j];
    }
  }

  /** The results of an aborted run are a prefix of what a continue-on-error run records, and so are its events. */
  lemma AbortedIsPrefixOfContinued<K>(lockId: int, steps: seq<Step<K>>, delayMs: int)
    requires RunBatch(lockId, steps, delayMs, false).report.Aborted?
    ensures var aborted := RunBatch(lockId, steps, delayMs, false);
            var continued := RunBatch(lockId, steps, delayMs, true);
            && aborted.report.results <= continued.report.results
            && aborted.trace <= continued.trace
  {
    var k := FirstFailure(steps);
    ThrottledAppend(steps[..k], steps[k..], delayMs);
    assert steps[..k] + steps[k..] == steps;
    var tail := Throttled(steps[k..], delayMs);
    assert tail == steps[k].events + Pause(delayMs) + Throttled(steps[k + 1..], delayMs) by {
      assert steps[k..][1..] == steps[k + 1..];
    }
  }

  /** When nothing fails the policy makes no difference. */
  lemma PolicyIrrelevantWithoutFailure<K>(lockId: int, steps: seq<Step<K>>, delayMs: int)
    requires NoFailure(steps)
    ensures RunBatch(lockId, steps, delayMs, false) == RunBatch(lockId, steps, delayMs, true)
  {
  }

  lemma {:induction false} ThrottledAppend<K>(a: seq<Step<K>>, b: seq<Step<K>>, delayMs: int)
    ensures Throttled(a + b, delayMs) == Throttled(a, delayMs) + Throttled(b, delayMs)
    decreases |a|
  {
    if |a| == 0 {
      assert a + b == b;
    } else {
      assert (a + b)[1..] == a[1..] + b;
      ThrottledAppend(a[1..], b, delayMs);
    }
  }

  /** The success count is the number of items that did not fail; every item is accounted for. */
  lemma {:induction false} CountOkEntries<K>(steps: seq<Step<K>>)
    ensures CountOk(Entries(steps)) == |steps| <==> NoFailure(steps)
    decreases |steps|
  {
    if |steps| > 0 {
      EntriesCons(steps);
      assert Entries(steps)[1..] == Entries(steps[1..]);
      CountOkEntries(steps[1..]);
      if NoFailure(steps) {
        assert NoFailure(steps[1..]) by {
          forall i | 0 <= i < |steps[1..]| ensures steps[1..][i].failure.None? {
            assert steps[1..][i] == steps[i + 1];
          }
        }
      } else if steps[0].failure.None? {
        assert !NoFailure(steps[1..]) by {
          var i :| 0 <= i < |steps| && steps[i].failure.Some?;
          assert steps[1..][i - 1] == steps[i];
        }
      }
    }
  }

  /** A completed run reports at least one failure exactly when some item failed. */
  lemma CompletedCountsFailures<K>(lockId: int, steps: seq<Step<K>>, delayMs: int)
    ensures var rep := RunBatch(lockId, steps, delayMs, true).report;
            rep.Completed? && (rep.failure >= 1 <==> !NoFailure(steps))
  {
    CountOkEntries(steps);
  }

  lemma {:induction false} SleepsAppend(a: seq<Event>, b: seq<Event>)
    ensures Sleeps(a + b) == Sleeps(a) + Sleeps(b)
    decreases |a|
  {
    if |a| == 0 {
      assert a + b == b;
    } else {
      assert (a + b)[1..] == a[1..] + b;
      SleepsAppend(a[1..], b);
    }
  }

  /** One sleep follows each item the loop finished, the last one included, exactly when the delay is nonzero. */
  lemma {:induction false} ThrottledSleeps<K>(steps: seq<Step<K>>, delayMs: int)
    requires AttemptsDoNotSleep(steps)
    ensures Sleeps(Throttled(steps, delayMs)) == if delayMs != 0 then |steps| else 0
    decreases |steps|
  {
    if |steps| > 0 {
      assert AttemptsDoNotSleep(steps[1..]) by {
        forall i | 0 <= i < |steps[1..]| ensures Sleeps(steps[1..][i].events) == 0 {
          assert steps[1..][i] == steps[i + 1];
        }
      }
      ThrottledSleeps(steps[1..], delayMs);
      SleepsAppend(steps[0].events, Pause(delayMs));
      SleepsAppend(steps[0].events + Pause(delayMs), Throttled(steps[1..], delayMs));
      assert Sleeps(Pause(delayMs)) == if delayMs != 0 then 1 else 0;
    }
  }

  /** Sleeps in a run: one per item completed without stopping the run, none after an abort. */
  lemma RunSleeps<K>(lockId: int, steps: seq<Step<K>>, delayMs: int, continueOnError: bool)
    requires AttemptsDoNotSleep(steps)
    ensures var r := RunBatch(lockId, steps, delayMs, continueOnError);
            Sleeps(r.trace) == if delayMs == 0 then 0
                               else if r.report.Completed? then |steps|
                               else r.report.attempted - 1
  {
    var r := RunBatch(lockId, steps, delayMs, continueOnError);
    if r.report.Completed? {
      ThrottledSleeps(steps, delayMs);
    } else {
      var k := FirstFailure(steps);
      assert AttemptsDoNotSleep(steps[..k]) by {
        forall i | 0 <= i < k ensures Sleeps(steps[..k][i].events) == 0 {
          assert steps[..k][i] == steps[i];
        }
      }
      ThrottledSleeps(steps[..k], delayMs);
      SleepsAppend(Throttled(steps[..k], delayMs), steps[k].events);
    }
  }
}

=== FILE: client.dfy ===
/**
 * The token state of the TTLock API client and its single authenticated request path.
 *
 * The transport is not modelled: a call that reaches the network is recorded as a
 * `Post` event, and the caller supplies the response the network returned for it.
 */
module Client {
  import opened Wrappers
  import opened Json
  import opened Errors
  import opened Decimal

  /** Client identity and the API base URL, fixed at construction. */
  datatype Config = Config(base: string, clientId: string, clientSecret: string)

  /** The access/refresh pair. Each slot holds whatever the last token exchange returned. */
  datatype Tokens = Tokens(access: Option<Json>, refresh: Option<Json>)

  /** A freshly constructed client holds neither token. */
  const NoTokens := Tokens(None, None)

  /** One form-encoded POST: the URL and the fields that are present. */
  datatype Request = Request(url: string, form: Body)

  /** What the client does to the outside world, in order. */
  datatype Event = Post(request: Request) | Sleep(ms: int)

  /** The transport's answer to one POST: a failure, or the decoded JSON body. */
  datatype Response = Failed(cause: string) | Received(body: Body)

  /** The environment of one authenticated call: the clock reading and the transport's answer. */
  datatype Call = Call(now: int, response: Response)

  /** Result of an operation, the token state after it, and the events it caused. */
  datatype Outcome<+T> = Outcome(result: Result<T, Error>, tokens: Tokens, trace: seq<Event>)

  const TokenPath := "/oauth2/token"
  const RefreshPath := "/oauth2/refreshToken"
  const NoRefreshTokenMessage := "No refresh token — haz login primero."
  const NoAccessTokenMessage := "No autenticado — llama a login()."

  // ---------------------------------------------------------------------------
  // Remote error classification (assertNoTTError)
  // ---------------------------------------------------------------------------

  /** A body reports failure when its `errcode` is a number other than zero. */
  predicate IsErrorCoded(body: Body)
  {
    "errcode" in body && body["errcode"].Num? && body["errcode"].n != 0
  }

  /** The message used when the body carries no usable `errmsg`. */
  function DefaultMessage(code: int): (m: string)
    ensures |m| > |"TTLock error "|
    ensures m[..|"TTLock error "|] == "TTLock error "
    ensures ParseInt(m[|"TTLock error "|..]) == code
  {
    var m := "TTLock error " + IntToString(code);
    assert m[|"TTLock error "|..] == IntToString(code);
    IntRoundTrip(code);
    m
  }

  /** `errmsg || "TTLock error <code>"`: a non-empty string `errmsg` wins. */
  function RemoteMessage(body: Body, code: int): (m: string)
    ensures (Field(body, "errmsg").Some? && body["errmsg"].Str? && body["errmsg"].s != "")
            ==> m == body["errmsg"].s
    ensures !(Field(body, "errmsg").Some? && body["errmsg"].Str? && body["errmsg"].s != "")
            ==> m == DefaultMessage(code)
  {
    match Field(body, "errmsg")
    case Some(Str(s)) => if s != "" then s else DefaultMessage(code)
    case _ => DefaultMessage(code)
  }

  /**
   * `assertNoTTError`: a body with a nonzero numeric `errcode` becomes a `Remote` error
   * carrying that code; any other body is handed back untouched.
   */
  function CheckNoRemoteError(body: Body): (r: Result<Body, Error>)
    ensures r.Err? <==> IsErrorCoded(body)
    ensures r.Ok? ==> r.value == body
    ensures r.Err? ==> r.error == Remote(body["errcode"].n, RemoteMessage(body, body["errcode"].n))
  {
    if IsErrorCoded(body) then
      var code := body["errcode"].n;
      Err(Remote(code, RemoteMessage(body, code)))
    else
      Ok(body)
  }

  // ---------------------------------------------------------------------------
  // Token state and the OAuth exchanges
  // ---------------------------------------------------------------------------

  /** `isAuthed()`: `Boolean(accessToken)`. */
  predicate IsAuthed(t: Tokens)
  {
    IsTruthy(t.access)
  }

  function LoginRequest(cfg: Config, username: string, passwordMd5: string): Request
  {
    Request(cfg.base + TokenPath,
            map["client_id" := Str(cfg.clientId), "client_secret" := Str(cfg.clientSecret),
                "username" := Str(username), "password" := Str(passwordMd5)])
  }

  function RefreshRequest(cfg: Config, refreshToken: Json): Request
  {
    Request(cfg.base + RefreshPath,
            map["client_id" := Str(cfg.clientId), "client_secret" := Str(cfg.clientSecret),
                "refresh_token" := refreshToken])
  }

  /**
   * Posts a token exchange and, once the post resolves, stores both returned fields
   * together. The body's `errcode` is not inspected.
   */
  function Exchange(t: Tokens, request: Request, response: Response): (o: Outcome<()>)
    ensures o.trace == [Post(request)]
    ensures response.Failed? ==> o.result == Err(Transport(response.cause)) && o.tokens == t
    ensures response.Received? ==>
              o.result.Ok? &&
              o.tokens.access == Field(response.body, "access_token") &&
              o.tokens.refresh == Field(response.body, "refresh_token")
  {
    match response
    case Failed(cause) => Outcome(Err(Transport(cause)), t, [Post(request)])
    case Received(body) =>
      Outcome(Ok(()), Tokens(Field(body, "access_token"), Field(body, "refresh_token")), [Post(request)])
  }

  /** `login(username, passwordMd5)`. */
  function Login(t: Tokens, cfg: Config, username: string, passwordMd5: string, response: Response): (o: Outcome<()>)
    ensures o.trace == [Post(LoginRequest(cfg, username, passwordMd5))]
    ensures o.result.Err? <==> response.Failed?
    ensures response.Failed? ==> o.result == Err(Transport(response.cause)) && o.tokens == t
    ensures response.Received? ==>
              o.tokens == Tokens(Field(response.body, "access_token"), Field(response.body, "refresh_token"))
  {
    Exchange(t, LoginRequest(cfg, username, passwordMd5), response)
  }

  /** `refresh()`: refused before any request when no truthy refresh token is held. */
  function Refresh(t: Tokens, cfg: Config, response: Response): (o: Outcome<()>)
    ensures !IsTruthy(t.refresh) ==>
              o.result == Err(NotAuthenticated(NoRefreshTokenMessage)) && o.tokens == t && o.trace == []
    ensures IsTruthy(t.refresh) ==> o.trace == [Post(RefreshRequest(cfg, t.refresh.value))]
    ensures IsTruthy(t.refresh) ==> (o.result.Err? <==> response.Failed?)
    ensures IsTruthy(t.refresh) && response.Failed? ==> o.result == Err(Transport(response.cause))
    ensures IsTruthy(t.refresh) && response.Received? ==>
              o.tokens == Tokens(Field(response.body, "access_token"), Field(response.body, "refresh_token"))
    ensures o.result.Err? ==> o.tokens == t
  {
    if !IsTruthy(t.refresh) then
      Outcome(Err(NotAuthenticated(NoRefreshTokenMessage)), t, [])
    else
      Exchange(t, RefreshRequest(cfg, t.refresh.value), response)
  }

  /** `ensureToken()`: passes exactly when an access token is held. */
  function EnsureToken(t: Tokens): (r: Result<(), Error>)
    ensures r.Ok? <==> IsAuthed(t)
    ensures r.Err? ==> r.error == NotAuthenticated(NoAccessTokenMessage)
  {
    if IsAuthed(t) then Ok(()) else Err(NotAuthenticated(NoAccessTokenMessage))
  }

  // ---------------------------------------------------------------------------
  // The authenticated POST (postForm)
  // ---------------------------------------------------------------------------

  /** The fields every authenticated call carries before the caller's form is spread over them. */
  function Injected(cfg: Config, accessToken: Json, now: int): (m: Body)
    ensures m.Keys == {"clientId", "accessToken", "date"}
    ensures m["clientId"] == Str(cfg.clientId) && m["accessToken"] == accessToken && m["date"] == Num(now)
  {
    map["clientId" := Str(cfg.clientId), "accessToken" := accessToken, "date" := Num(now)]
  }

  /** `{...base, ...form}`: the later spread wins on every shared key. */
  function Overlay(base: Body, form: Body): (r: Body)
    ensures r.Keys == base.Keys + form.Keys
    ensures forall k :: k in form ==> r[k] == form[k]
    ensures forall k :: k in base && k !in form ==> r[k] == base[k]
  {
    base + form
  }

  /** The request `postForm(path, form)` issues for the token state `t`. */
  function FormRequest(t: Tokens, cfg: Config, path: string, form: Body, now: int): Request
    requires IsAuthed(t)
  {
    Request(cfg.base + path, Overlay(Injected(cfg, t.access.value, now), form))
  }

  /**
   * `postForm(path, form)`: checks the token, posts the overlaid form once, and hands back
   * the decoded body unless it carries a nonzero `errcode`. Never touches the tokens.
   */
  function PostForm(t: Tokens, cfg: Config, path: string, form: Body, call: Call): (o: Outcome<Body>)
    ensures o.tokens == t
    ensures !IsAuthed(t) ==> o.result == Err(NotAuthenticated(NoAccessTokenMessage)) && o.trace == []
    ensures IsAuthed(t) ==> o.trace == [Post(FormRequest(t, cfg, path, form, call.now))]
    ensures IsAuthed(t) && call.response.Failed? ==> o.result == Err(Transport(call.response.cause))
    ensures IsAuthed(t) && call.response.Received? ==>
              (o.result.Err? <==> IsErrorCoded(call.response.body)) &&
              (o.result.Ok? ==> o.result.value == call.response.body)
    ensures IsAuthed(t) && call.response.Received? ==> o.result == CheckNoRemoteError(call.response.body)
  {
    match EnsureToken(t)
    case Err(e) => Outcome(Err(e), t, [])
    case Ok(_) =>
      var request := FormRequest(t, cfg, path, form, call.now);
      match call.response
      case Failed(cause) => Outcome(Err(Transport(cause)), t, [Post(request)])
      case Received(body) => Outcome(CheckNoRemoteError(body), t, [Post(request)])
  }

  // ---------------------------------------------------------------------------
  // Properties
  // ---------------------------------------------------------------------------

  /** A string access token authenticates exactly when it is non-empty. */
  lemma AuthedIffNonEmptyToken(t: Tokens, s: string)
    requires t.access == Some(Str(s))
    ensures IsAuthed(t) <==> s != ""
  {
    StringTruthiness(s);
  }

  /** The raised error carries the body's code, and its message names the code when `errmsg` is unusable. */
  lemma RemoteErrorCarriesCode(body: Body)
    requires IsErrorCoded(body)
    ensures CheckNoRemoteError(body).error.code == body["errcode"].n
    ensures var m := CheckNoRemoteError(body).error.message;
            ("errmsg" in body && body["errmsg"].Str? && body["errmsg"].s != "") ==> m == body["errmsg"].s
    ensures var m := CheckNoRemoteError(body).error.message;
            !("errmsg" in body && body["errmsg"].Str? && body["errmsg"].s != "") ==>
              |m| > |"TTLock error "| &&
              m[..|"TTLock error "|] == "TTLock error " && ParseInt(m[|"TTLock error "|..]) == body["errcode"].n
  {
  }

  /** A zero or absent `errcode`, or one that is not a number, is never an error. */
  lemma ZeroCodeIsSuccess(body: Body)
    requires "errcode" !in body || !body["errcode"].Num? || body["errcode"].n == 0
    ensures CheckNoRemoteError(body) == Ok(body)
  {
  }

  /**
   * The form that reaches the wire: every caller key keeps the caller's value, and the
   * injected `clientId`, `accessToken` and `date` survive only where the caller has no such key.
   */
  lemma SentForm(t: Tokens, cfg: Config, path: string, form: Body, call: Call)
    requires IsAuthed(t)
    ensures var o := PostForm(t, cfg, path, form, call);
            var sent := o.trace[0].request.form;
            && o.trace[0].request.url == cfg.base + path
            && sent.Keys == form.Keys + {"clientId", "accessToken", "date"}
            && (forall k :: k in form ==> sent[k] == form[k])
            && ("clientId" !in form ==> sent["clientId"] == Str(cfg.clientId))
            && ("accessToken" !in form ==> sent["accessToken"] == t.access.value)
            && ("date" !in form ==> sent["date"] == Num(call.now))
  {
  }

  /** Login stores the returned pair even when the body is error-coded; a body without tokens logs the client out. */
  lemma LoginIgnoresErrorCode(t: Tokens, cfg: Config, username: string, passwordMd5: string, body: Body)
    requires IsErrorCoded(body)
    requires "access_token" !in body
    ensures var o := Login(t, cfg, username, passwordMd5, Received(body));
            o.result.Ok? && !IsAuthed(o.tokens)
  {
  }

  /** After a login whose body holds a non-empty string access token, the client is authenticated. */
  lemma LoginAuthenticates(t: Tokens, cfg: Config, username: string, passwordMd5: string, body: Body, token: string)
    requires Field(body, "access_token") == Some(Str(token)) && token != ""
    ensures IsAuthed(Login(t, cfg, username, passwordMd5, Received(body)).tokens)
  {
  }

  /**
   * Refresh continues the session login started: it posts the refresh token the login
   * returned, and a non-empty access token in its answer authenticates the client.
   */
  lemma RefreshRenewsSession(t: Tokens, cfg: Config, username: string, passwordMd5: string,
                             loginBody: Body, refreshToken: string, refreshBody: Body, access: string)
    requires Field(loginBody, "refresh_token") == Some(Str(refreshToken)) && refreshToken != ""
    requires Field(refreshBody, "access_token") == Some(Str(access)) && access != ""
    ensures var afterLogin := Login(t, cfg, username, passwordMd5, Received(loginBody)).tokens;
            var o := Refresh(afterLogin, cfg, Received(refreshBody));
            && o.result.Ok?
            && o.trace == [Post(RefreshRequest(cfg, Str(refreshToken)))]
            && o.trace[0].request.form["refresh_token"] == Str(refreshToken)
            && IsAuthed(o.tokens)
            && o.tokens.refresh == Field(refreshBody, "refresh_token")
  {
  }

  /** A freshly constructed client cannot refresh, and trying issues no request. */
  lemma FreshClientCannotRefresh(cfg: Config, response: Response)
    ensures Refresh(NoTokens, cfg, response) == Outcome(Err(NotAuthenticated(NoRefreshTokenMessage)), NoTokens, [])
  {
  }
}

=== FILE: decimal.dfy ===
/**
 * Decimal rendering of integers, as JavaScript's template literals print integer-valued
 * numbers below 1e21 in magnitude; exponent notation (`1e+21`) and the rounding of
 * values beyond 2^53 are not represented.
 */
module Decimal {

  predicate IsDigit(c: char)
  {
    '0' <= c <= '9'
  }

  predicate AllDigits(s: string)
  {
    forall i :: 0 <= i < |s| ==> IsDigit(s[i])
  }

  function DigitChar(d: nat): (c: char)
    requires d < 10
    ensures IsDigit(c)
  {
    ['0', '1', '2', '3', '4', '5', '6', '7', '8', '9'][d]
  }

  function DigitValue(c: char): (d: nat)
    requires IsDigit(c)
    ensures d < 10
  {
    (c as int - '0' as int) as nat
  }

  /** The shortest decimal spelling of `n`, most significant digit first. */
  function NatToString(n: nat): (s: string)
    ensures |s| > 0
    ensures AllDigits(s)
    decreases n
  {
    if n < 10 then [DigitChar(n)] else NatToString(n / 10) + [DigitChar(n % 10)]
  }

  /** `${n}` for an integer below 1e21 in magnitude: a minus sign, then the digits of the magnitude. */
  function IntToString(n: int): (s: string)
    ensures |s| > 0
  {
    if n < 0 then "-" + NatToString(-n) else NatToString(n)
  }

  /** Reads a run of digits back into the number it spells. */
  function ParseNat(s: string): (n: nat)
    requires AllDigits(s)
    decreases |s|
  {
    if |s| == 0 then 0 else 10 * ParseNat(s[..|s| - 1]) + DigitValue(s[|s| - 1])
  }

  /** Reads an optionally negative decimal numeral; the inverse of `IntToString`. */
  function ParseInt(s: string): int
  {
    if |s| > 0 && s[0] == '-' && AllDigits(s[1..]) then
      -(ParseNat(s[1..]) as int)
    else if AllDigits(s) then
      ParseNat(s)
    else
      0
  }

  lemma {:induction false} NatRoundTrip(n: nat)
    ensures ParseNat(NatToString(n)) == n
    decreases n
  {
    if n >= 10 {
      var s := NatToString(n);
      NatRoundTrip(n / 10);
      assert s[..|s| - 1] == NatToString(n / 10);
      assert DigitValue(s[|s| - 1]) == n % 10;
    } else {
      assert DigitValue(DigitChar(n)) == n;
    }
  }

  /** Printing an integer loses nothing: the code can be read back from the text. */
  lemma IntRoundTrip(n: int)
    ensures ParseInt(IntToString(n)) == n
  {
    if n < 0 {
      var digits := NatToString(-n);
      NatRoundTrip(-n);
      assert ("-" + digits)[1..] == digits;
    } else {
      var digits := NatToString(n);
      NatRoundTrip(n);
      assert IsDigit(digits[0]);
    }
  }
}

=== FILE: endpoints.dfy ===
/**
 * The domain operations of the TTLock client: each is one authenticated POST to a fixed
 * endpoint with a fixed mapping from its arguments to form fields.
 */
module Endpoints {
  import opened Wrappers
  import opened Json
  import opened Errors
  import opened Client

  /** Card deletion channel: 1 = Bluetooth, 2 = gateway, 3 = NB-IoT. */
  type DeleteType = d: int | 1 <= d <= 3 witness 2

  const GatewayDelete: DeleteType := 2
  /** `addType` of a card added through the gateway/cloud. */
  const GatewayAdd := 2
  const DefaultPageNo := 1
  const DefaultPageSize := 50
  /** A card validity bound of 0 means "unbounded". */
  const Unbounded := 0

  /** The optional `params` object of `listLocks`. */
  datatype PageParams = PageParams(pageNo: Option<int>, pageSize: Option<int>)

  /** One call of a domain method, with the arguments as the caller passed them (`None` = omitted). */
  datatype Op =
    | ListLocks(params: Option<PageParams>)
    | LockDetail(lockId: int)
    | Unlock(lockId: int)
    | Lock(lockId: int)
    | ListCards(lockId: int, pageNo: Option<int>, pageSize: Option<int>)
    | AddCard(lockId: int, cardNumber: string, cardName: Option<string>, startDate: Option<int>, endDate: Option<int>)
    | DeleteCard(lockId: int, cardId: int, deleteType: Option<DeleteType>)
    | ClearCards(lockId: int)
    | ListRecords(lockId: int, pageNo: Option<int>, pageSize: Option<int>, startDate: Option<int>, endDate: Option<int>)

  /** The fixed v3 endpoints the domain methods post to. */
  datatype Endpoint =
    | V3LockList | V3LockDetail | V3LockUnlock | V3LockLock
    | V3CardList | V3CardAdd | V3CardDelete | V3CardClear
    | V3RecordList

  function Path(e: Endpoint): string
  {
    match e
    case V3LockList => "/v3/lock/list"
    case V3LockDetail => "/v3/lock/detail"
    case V3LockUnlock => "/v3/lock/unlock"
    case V3LockLock => "/v3/lock/lock"
    case V3CardList => "/v3/identityCard/list"
    case V3CardAdd => "/v3/identityCard/add"
    case V3CardDelete => "/v3/identityCard/delete"
    case V3CardClear => "/v3/identityCard/clear"
    case V3RecordList => "/v3/lockRecord/list"
  }

  /** The endpoint each domain method posts to. */
  function EndpointOf(op: Op): Endpoint
  {
    match op
    case ListLocks(_) => V3LockList
    case LockDetail(_) => V3LockDetail
    case Unlock(_) => V3LockUnlock
    case Lock(_) => V3LockLock
    case ListCards(_, _, _) => V3CardList
    case AddCard(_, _, _, _, _) => V3CardAdd
    case DeleteCard(_, _, _) => V3CardDelete
    case ClearCards(_) => V3CardClear
    case ListRecords(_, _, _, _, _) => V3RecordList
  }

  /** Adds `key` only when a value was supplied: an omitted argument sends no field at all. */
  function PutNum(form: Body, key: string, v: Option<int>): (r: Body)
    ensures key in r <==> (key in form || v.Some?)
    ensures v.Some? ==> r[key] == Num(v.value)
    ensures forall k :: k in form && k != key ==> k in r && r[k] == form[k]
    ensures forall k :: k in r && k != key ==> k in form
  {
    if v.Some? then form[key := Num(v.value)] else form
  }

  function PutStr(form: Body, key: string, v: Option<string>): (r: Body)
    ensures key in r <==> (key in form || v.Some?)
    ensures v.Some? ==> r[key] == Str(v.value)
    ensures forall k :: k in form && k != key ==> k in r && r[k] == form[k]
    ensures forall k :: k in r && k != key ==> k in form
  {
    if v.Some? then form[key := Str(v.value)] else form
  }

  /** A caller form that leaves the fields `postForm` injects to `postForm`. */
  predicate NoInjectedKey(form: Body)
  {
    "clientId" !in form && "accessToken" !in form && "date" !in form
  }

  /** `listLocks(params)`: the optional page fields, passed through as given. */
  function LockListForm(params: Option<PageParams>): (form: Body)
    ensures NoInjectedKey(form)
    ensures var p := params.GetOr(PageParams(None, None));
            form.Keys == (if p.pageNo.Some? then {"pageNo"} else {}) + (if p.pageSize.Some? then {"pageSize"} else {})
    ensures Decode(V3LockList, form) == Some(ListLocks(Some(params.GetOr(PageParams(None, None)))))
  {
    var p := params.GetOr(PageParams(None, None));
    PutNum(PutNum(map[], "pageNo", p.pageNo), "pageSize", p.pageSize)
  }

  /** The form of the four single-lock methods: `getLockDetail`, `unlock`, `lock` and `clearCards`. */
  function LockIdForm(lockId: int): (form: Body)
    ensures NoInjectedKey(form)
    ensures form.Keys == {"lockId"}
    ensures Decode(V3LockDetail, form) == Some(LockDetail(lockId))
    ensures Decode(V3LockUnlock, form) == Some(Unlock(lockId))
    ensures Decode(V3LockLock, form) == Some(Lock(lockId))
    ensures Decode(V3CardClear, form) == Some(ClearCards(lockId))
  {
    map["lockId" := Num(lockId)]
  }

  /** `listCards(lockId, pageNo = 1, pageSize = 50)`. */
  function CardListForm(lockId: int, pageNo: Option<int>, pageSize: Option<int>): (form: Body)
    ensures NoInjectedKey(form)
    ensures form.Keys == {"lockId", "pageNo", "pageSize"}
    ensures Decode(V3CardList, form)
            == Some(ListCards(lockId, Some(pageNo.GetOr(DefaultPageNo)), Some(pageSize.GetOr(DefaultPageSize))))
  {
    map["lockId" := Num(lockId), "pageNo" := Num(pageNo.GetOr(DefaultPageNo)),
        "pageSize" := Num(pageSize.GetOr(DefaultPageSize))]
  }

  /** `addCardViaGateway`: omitted bounds become 0, an omitted name is left out, `addType` is 2. */
  function CardAddForm(lockId: int, cardNumber: string, cardName: Option<string>,
                       startDate: Option<int>, endDate: Option<int>): (form: Body)
    ensures NoInjectedKey(form)
    ensures form.Keys == {"lockId", "cardNumber", "startDate", "endDate", "addType"}
                         + (if cardName.Some? then {"cardName"} else {})
    ensures Decode(V3CardAdd, form)
            == Some(AddCard(lockId, cardNumber, cardName, Some(startDate.GetOr(Unbounded)), Some(endDate.GetOr(Unbounded))))
  {
    PutStr(map["lockId" := Num(lockId), "cardNumber" := Str(cardNumber),
               "startDate" := Num(startDate.GetOr(Unbounded)), "endDate" := Num(endDate.GetOr(Unbounded)),
               "addType" := Num(GatewayAdd)],
           "cardName", cardName)
  }

  /** `deleteCard(lockId, cardId, deleteType = 2)`. */
  function CardDeleteForm(lockId: int, cardId: int, deleteType: Option<DeleteType>): (form: Body)
    ensures NoInjectedKey(form)
    ensures form.Keys == {"lockId", "cardId", "deleteType"}
    ensures Decode(V3CardDelete, form) == Some(DeleteCard(lockId, cardId, Some(deleteType.GetOr(GatewayDelete))))
  {
    map["lockId" := Num(lockId), "cardId" := Num(cardId), "deleteType" := Num(deleteType.GetOr(GatewayDelete))]
  }

  /** `listUnlockRecords`: page fields default, date filters are added only when supplied. */
  function RecordListForm(lockId: int, pageNo: Option<int>, pageSize: Option<int>,
                          startDate: Option<int>, endDate: Option<int>): (form: Body)
    ensures NoInjectedKey(form)
    ensures form.Keys == {"lockId", "pageNo", "pageSize"}
                         + (if startDate.Some? then {"startDate"} else {})
                         + (if endDate.Some? then {"endDate"} else {})
    ensures Decode(V3RecordList, form)
            == Some(ListRecords(lockId, Some(pageNo.GetOr(DefaultPageNo)), Some(pageSize.GetOr(DefaultPageSize)),
                                startDate, endDate))
  {
    var form := map["lockId" := Num(lockId), "pageNo" := Num(pageNo.GetOr(DefaultPageNo)),
                    "pageSize" := Num(pageSize.GetOr(DefaultPageSize))];
    PutNum(PutNum(form, "startDate", startDate), "endDate", endDate)
  }

  /**
   * The caller's form each domain method hands to `postForm`. It names the operation
   * unambiguously: read back, it is the operation with its defaults filled in.
   */
  function FormOf(op: Op): (form: Body)
    ensures Decode(EndpointOf(op), form) == Some(Normalize(op))
    ensures NoInjectedKey(form)
  {
    match op
    case ListLocks(params) => LockListForm(params)
    case LockDetail(lockId) => LockIdForm(lockId)
    case Unlock(lockId) => LockIdForm(lockId)
    case Lock(lockId) => LockIdForm(lockId)
    case ListCards(lockId, pageNo, pageSize) => CardListForm(lockId, pageNo, pageSize)
    case AddCard(lockId, cardNumber, cardName, startDate, endDate) =>
      CardAddForm(lockId, cardNumber, cardName, startDate, endDate)
    case DeleteCard(lockId, cardId, deleteType) => CardDeleteForm(lockId, cardId, deleteType)
    case ClearCards(lockId) => LockIdForm(lockId)
    case ListRecords(lockId, pageNo, pageSize, startDate, endDate) =>
      RecordListForm(lockId, pageNo, pageSize, startDate, endDate)
  }

  /** Performs `op` through `postForm`. */
  function Invoke(t: Tokens, cfg: Config, op: Op, call: Call): (o: Outcome<Body>)
    ensures o.tokens == t
    ensures !IsAuthed(t) ==> o.result.Err? && o.trace == []
    ensures IsAuthed(t) ==>
              |o.trace| == 1 && o.trace[0].Post? &&
              o.trace[0].request.url == cfg.base + Path(EndpointOf(op)) &&
              Decode(EndpointOf(op), o.trace[0].request.form) == Some(Normalize(op))
    ensures IsAuthed(t) ==>
              var sent := o.trace[0].request.form;
              && sent.Keys == FormOf(op).Keys + {"clientId", "accessToken", "date"}
              && sent["clientId"] == Str(cfg.clientId)
              && sent["accessToken"] == t.access.value
              && sent["date"] == Num(call.now)
    ensures IsAuthed(t) && call.response.Received? ==>
              (o.result.Ok? <==> !IsErrorCoded(call.response.body)) &&
              (o.result.Ok? ==> o.result.value == call.response.body)
    ensures IsAuthed(t) && call.response.Received? ==> o.result == CheckNoRemoteError(call.response.body)
    ensures IsAuthed(t) && call.response.Failed? ==> o.result == Err(Transport(call.response.cause))
  {
    var o := PostForm(t, cfg, Path(EndpointOf(op)), FormOf(op), call);
    if IsAuthed(t) then
      DecodeIgnoresInjected(op, Injected(cfg, t.access.value, call.now));
      o
    else
      o
  }

  // ---------------------------------------------------------------------------
  // The partner of the form mapping: reading a sent form back into an operation
  // ---------------------------------------------------------------------------

  function NumAt(form: Body, key: string): (r: Option<int>)
    ensures r.Some? <==> key in form && form[key].Num?
    ensures r.Some? ==> form[key] == Num(r.value)
  {
    if key in form && form[key].Num? then Some(form[key].n) else None
  }

  function StrAt(form: Body, key: string): (r: Option<string>)
    ensures r.Some? <==> key in form && form[key].Str?
    ensures r.Some? ==> form[key] == Str(r.value)
  {
    if key in form && form[key].Str? then Some(form[key].s) else None
  }

  /** The operation a request to endpoint `e` names, as the remote service would read it. */
  function Decode(e: Endpoint, form: Body): Option<Op>
  {
    var lockId := NumAt(form, "lockId");
    if e == V3LockList then
      Some(ListLocks(Some(PageParams(NumAt(form, "pageNo"), NumAt(form, "pageSize")))))
    else if lockId.None? then None
    else
      match e
      case V3LockDetail => Some(LockDetail(lockId.value))
      case V3LockUnlock => Some(Unlock(lockId.value))
      case V3LockLock => Some(Lock(lockId.value))
      case V3CardClear => Some(ClearCards(lockId.value))
      case V3CardList => Some(ListCards(lockId.value, NumAt(form, "pageNo"), NumAt(form, "pageSize")))
      case V3CardAdd =>
        var cardNumber := StrAt(form, "cardNumber");
        if cardNumber.None? || NumAt(form, "addType") != Some(GatewayAdd) then None
        else Some(AddCard(lockId.value, cardNumber.value, StrAt(form, "cardName"),
                          NumAt(form, "startDate"), NumAt(form, "endDate")))
      case V3CardDelete =>
        var cardId := NumAt(form, "cardId");
        var deleteType := NumAt(form, "deleteType");
        if cardId.None? || deleteType.None? || !(1 <= deleteType.value <= 3) then None
        else Some(DeleteCard(lockId.value, cardId.value, Some(deleteType.value as DeleteType)))
      case V3RecordList =>
        Some(ListRecords(lockId.value, NumAt(form, "pageNo"), NumAt(form, "pageSize"),
                         NumAt(form, "startDate"), NumAt(form, "endDate")))
      case V3LockList => None
  }

  /** The operation with every defaulted argument filled in; arguments without a default stay as given. */
  function Normalize(op: Op): Op
  {
    match op
    case ListLocks(params) => ListLocks(Some(params.GetOr(PageParams(None, None))))
    case ListCards(lockId, pageNo, pageSize) =>
      ListCards(lockId, Some(pageNo.GetOr(DefaultPageNo)), Some(pageSize.GetOr(DefaultPageSize)))
    case AddCard(lockId, cardNumber, cardName, startDate, endDate) =>
      AddCard(lockId, cardNumber, cardName, Some(startDate.GetOr(Unbounded)), Some(endDate.GetOr(Unbounded)))
    case DeleteCard(lockId, cardId, deleteType) => DeleteCard(lockId, cardId, Some(deleteType.GetOr(GatewayDelete)))
    case ListRecords(lockId, pageNo, pageSize, startDate, endDate) =>
      ListRecords(lockId, Some(pageNo.GetOr(DefaultPageNo)), Some(pageSize.GetOr(DefaultPageSize)), startDate, endDate)
    case _ => op
  }

  /** Two forms that hold the same argument fields name the same operation. */
  predicate SameArguments(f: Body, g: Body)
  {
    && NumAt(f, "lockId") == NumAt(g, "lockId")
    && NumAt(f, "pageNo") == NumAt(g, "pageNo")
    && NumAt(f, "pageSize") == NumAt(g, "pageSize")
    && StrAt(f, "cardNumber") == StrAt(g, "cardNumber")
    && StrAt(f, "cardName") == StrAt(g, "cardName")
    && NumAt(f, "startDate") == NumAt(g, "startDate")
    && NumAt(f, "endDate") == NumAt(g, "endDate")
    && NumAt(f, "addType") == NumAt(g, "addType")
    && NumAt(f, "cardId") == NumAt(g, "cardId")
    && NumAt(f, "deleteType") == NumAt(g, "deleteType")
  }

  lemma DecodeReadsArguments(e: Endpoint, f: Body, g: Body)
    requires SameArguments(f, g)
    ensures Decode(e, f) == Decode(e, g)
  {
  }

  /** A key the injected fields do not hold reads the same before and after the overlay. */
  lemma OverlayKeepsKey(injected: Body, form: Body, key: string)
    requires key !in injected
    ensures NumAt(Overlay(injected, form), key) == NumAt(form, key)
    ensures StrAt(Overlay(injected, form), key) == StrAt(form, key)
  {
  }

  /** Spreading a form over the injected fields leaves every argument field as the form has it. */
  lemma OverlayKeepsArguments(injected: Body, form: Body)
    requires injected.Keys == {"clientId", "accessToken", "date"}
    ensures SameArguments(Overlay(injected, form), form)
  {
    OverlayKeepsKey(injected, form, "lockId");
    OverlayKeepsKey(injected, form, "pageNo");
    OverlayKeepsKey(injected, form, "pageSize");
    OverlayKeepsKey(injected, form, "cardNumber");
    OverlayKeepsKey(injected, form, "cardName");
    OverlayKeepsKey(injected, form, "startDate");
    OverlayKeepsKey(injected, form, "endDate");
    OverlayKeepsKey(injected, form, "addType");
    OverlayKeepsKey(injected, form, "cardId");
    OverlayKeepsKey(injected, form, "deleteType");
  }

  /** The fields `postForm` injects are never read back as operation arguments. */
  lemma DecodeIgnoresInjected(op: Op, injected: Body)
    requires injected.Keys == {"clientId", "accessToken", "date"}
    ensures Decode(EndpointOf(op), Overlay(injected, FormOf(op))) == Decode(EndpointOf(op), FormOf(op))
  {
    OverlayKeepsArguments(injected, FormOf(op));
    DecodeReadsArguments(EndpointOf(op), Overlay(injected, FormOf(op)), FormOf(op));
  }

  /** Every endpoint has its own path. */
  lemma PathsDistinct(a: Endpoint, b: Endpoint)
    requires Path(a) == Path(b)
    ensures a == b
  {
  }

  /** Filling in defaults changes nothing on the wire, and a second time changes nothing at all. */
  lemma NormalizeIsInvisible(op: Op)
    ensures FormOf(Normalize(op)) == FormOf(op)
    ensures Normalize(Normalize(op)) == Normalize(op)
  {
  }

  /** Two operations send the same request exactly when they agree once defaults are filled in. */
  lemma SameRequestIffSameNormalForm(a: Op, b: Op)
    ensures (Path(EndpointOf(a)) == Path(EndpointOf(b)) && FormOf(a) == FormOf(b)) <==> Normalize(a) == Normalize(b)
  {
    if Path(EndpointOf(a)) == Path(EndpointOf(b)) {
      PathsDistinct(EndpointOf(a), EndpointOf(b));
    }
    if Normalize(a) == Normalize(b) {
      NormalizeIsInvisible(a);
      NormalizeIsInvisible(b);
      assert EndpointOf(Normalize(a)) == EndpointOf(a) && EndpointOf(Normalize(b)) == EndpointOf(b);
    }
  }

  /** Adding a card without a validity window sends 0 for both bounds, the same as an explicit 0. */
  lemma AddCardDatesDefaultToZero(lockId: int, cardNumber: string, cardName: Option<string>, endDate: Option<int>)
    ensures var form := FormOf(AddCard(lockId, cardNumber, cardName, None, endDate));
            form["startDate"] == Num(0) && form["addType"] == Num(2) &&
            form == FormOf(AddCard(lockId, cardNumber, cardName, Some(0), endDate))
  {
  }

  /** An explicit validity bound is sent as given. */
  lemma AddCardKeepsExplicitDates(lockId: int, cardNumber: string, cardName: Option<string>, startDate: int, endDate: int)
    ensures var form := FormOf(AddCard(lockId, cardNumber, cardName, Some(startDate), Some(endDate)));
            form["startDate"] == Num(startDate) && form["endDate"] == Num(endDate)
  {
  }

  /** Access-log date filters are omitted when not supplied, so an omitted filter differs from a 0 filter. */
  lemma RecordDatesAreOmitted(lockId: int, pageNo: Option<int>, pageSize: Option<int>,
                              startDate: Option<int>, endDate: Option<int>)
    ensures var form := FormOf(ListRecords(lockId, pageNo, pageSize, startDate, endDate));
            ("startDate" in form <==> startDate.Some?) && ("endDate" in form <==> endDate.Some?)
    ensures FormOf(ListRecords(lockId, pageNo, pageSize, None, endDate))
            != FormOf(ListRecords(lockId, pageNo, pageSize, Some(0), endDate))
  {
    var form := FormOf(ListRecords(lockId, pageNo, pageSize, Some(0), endDate));
    assert "startDate" in form;
  }

  /**
   * Adding card "123456" to lock 100 with no name or dates sends both dates as 0 and addType 2;
   * deleting card 7 from lock 100 with no deleteType sends deleteType 2.
   */
  lemma AddAndDeleteDefaults()
    ensures FormOf(AddCard(100, "123456", None, None, None))
            == map["lockId" := Num(100), "cardNumber" := Str("123456"), "startDate" := Num(0),
                   "endDate" := Num(0), "addType" := Num(2)]
    ensures FormOf(DeleteCard(100, 7, None)) == map["lockId" := Num(100), "cardId" := Num(7), "deleteType" := Num(2)]
  {
  }
}

=== FILE: errors.dfy ===
/** What the client and the tool layer throw. Every variant but `Thrown` is a JavaScript `Error`. */
module Errors {
  import opened Wrappers

  datatype Error =
      /** No usable token: raised by `ensureToken`, by `refresh` and by the tool-layer guard. */
    | NotAuthenticated(message: string)
      /** The transport rejected the call (connection failure, timeout, non-2xx status). */
    | Transport(message: string)
      /** The remote service answered with a nonzero `errcode`. */
    | Remote(code: int, message: string)
      /** A thrown value that is not an `Error` object; `shown` is what `String(e)` yields. */
    | Thrown(shown: string)
  {
    /** `e?.message`, which is `undefined` for a value that is not an `Error`. */
    function Message(): (m: Option<string>)
      ensures m.None? <==> Thrown?
    {
      if Thrown? then None else Some(message)
    }

    /** `String(e)`: an `Error` prints as `Error: <message>`. */
    function Shown(): string
    {
      if Thrown? then shown else "Error: " + message
    }
  }

  /** The text a bulk handler records for a failed item: `e?.message ?? String(e)`. */
  function ErrorText(e: Error): (text: string)
    ensures e.Message().Some? ==> text == e.Message().value
    ensures e.Message().None? ==> text == e.Shown()
  {
    e.Message().GetOr(e.Shown())
  }
}

=== FILE: json.dfy ===
/** Decoded JSON values as the client sees them after the transport has parsed a body. */
module Json {
  import opened Wrappers

  /** JavaScript numbers are modelled as integers: every numeric field of the remote API is one. */
  datatype Json =
    | Null
    | Bool(b: bool)
    | Num(n: int)
    | Str(s: string)
    | Arr(items: seq<Json>)
    | Obj(fields: map<string, Json>)

  /** A decoded response body, and equally an outgoing form: the keys that are present. */
  type Body = map<string, Json>

  /** JavaScript truthiness (`Boolean(v)`): `0`, `""`, `false` and `null` are falsy. */
  predicate Truthy(j: Json)
  {
    match j
    case Null => false
    case Bool(b) => b
    case Num(n) => n != 0
    case Str(s) => s != ""
    case Arr(_) => true
    case Obj(_) => true
  }

  /** Truthiness of a value that may be `undefined`. */
  predicate IsTruthy(o: Option<Json>)
  {
    o.Some? && Truthy(o.value)
  }

  /** Property access `body.key`, which is `undefined` for a missing key. */
  function Field(body: Body, key: string): (r: Option<Json>)
    ensures r.Some? <==> key in body
    ensures r.Some? ==> r.value == body[key]
  {
    if key in body then Some(body[key]) else None
  }

  /** A string is truthy exactly when it is non-empty. */
  lemma StringTruthiness(s: string)
    ensures Truthy(Str(s)) <==> |s| > 0
  {
  }
}

=== FILE: server.dfy ===
/**
 * The tool layer's logic: the authentication guard every privileged tool runs first, the
 * bulk card handlers built on the shared fold, and the confirmation guard of `cards.clear`.
 */
module Server {
  import opened Wrappers
  import opened Json
  import opened Errors
  import opened Client
  import opened Endpoints
  import opened Batch

  /** The optional default login read from the environment (username and password MD5). */
  datatype Credentials = Credentials(username: Option<string>, passwordMd5: Option<string>)

  const NotLoggedInMessage :=
    "No estoy autenticado en TTLock. Llama al tool auth.login o define TTLOCK_USERNAME y TTLOCK_PASSWORD_MD5 en .env."
  const ConfirmClearMessage := "Pon \"confirm\": true para vaciar todas las tarjetas."

  /** `Env.TTLOCK_USERNAME && Env.TTLOCK_PASSWORD_MD5`: both present and non-empty. */
  predicate HasDefaultLogin(c: Credentials)
  {
    c.username.Some? && c.username.value != "" && c.passwordMd5.Some? && c.passwordMd5.value != ""
  }

  /**
   * `ensureAuth()`: nothing when authenticated; otherwise a login with the configured
   * credentials when both are set; otherwise a failure that issues no request.
   */
  function EnsureAuth(t: Tokens, cfg: Config, creds: Credentials, response: Response): (o: Outcome<()>)
    ensures o.trace != [] <==> !IsAuthed(t) && HasDefaultLogin(creds)
    ensures o.trace != [] ==> o.trace == [Post(LoginRequest(cfg, creds.username.value, creds.passwordMd5.value))]
    ensures o.result.Err? <==> !IsAuthed(t) && (!HasDefaultLogin(creds) || response.Failed?)
    ensures !IsAuthed(t) && !HasDefaultLogin(creds) ==> o.result.error == NotAuthenticated(NotLoggedInMessage)
    ensures o.result.Err? || IsAuthed(t) ==> o.tokens == t
    ensures !IsAuthed(t) && HasDefaultLogin(creds) && response.Failed? ==> o.result == Err(Transport(response.cause))
    ensures !IsAuthed(t) && HasDefaultLogin(creds) && response.Received? ==>
              o.tokens == Tokens(Field(response.body, "access_token"), Field(response.body, "refresh_token"))
  {
    if IsAuthed(t) then
      Outcome(Ok(()), t, [])
    else if HasDefaultLogin(creds) then
      Login(t, cfg, creds.username.value, creds.passwordMd5.value, response)
    else
      Outcome(Err(NotAuthenticated(NotLoggedInMessage)), t, [])
  }

  /**
   * `withAuth(fn)`: runs the guard once, then the handler on the tokens the guard left;
   * the handler is not run when the guard fails.
   */
  function WithAuth<T>(t: Tokens, cfg: Config, creds: Credentials, authResponse: Response,
                       handler: Tokens -> Outcome<T>): (o: Outcome<T>)
    ensures var g := EnsureAuth(t, cfg, creds, authResponse);
            && (g.result.Err? ==> o == Outcome(Err(g.result.error), g.tokens, g.trace))
            && (g.result.Ok? ==> o.result == handler(g.tokens).result && o.tokens == handler(g.tokens).tokens)
            && (g.result.Ok? ==> o.trace == g.trace + handler(g.tokens).trace)
  {
    var g := EnsureAuth(t, cfg, creds, authResponse);
    match g.result
    case Err(e) => Outcome(Err(e), g.tokens, g.trace)
    case Ok(_) =>
      var h := handler(g.tokens);
      Outcome(h.result, h.tokens, g.trace + h.trace)
  }

  /** A single-call tool (`locks.list`, `cards.add`, `records.list`, ...): the guard, then one domain call. */
  function ToolCall(t: Tokens, cfg: Config, creds: Credentials, authResponse: Response, op: Op, call: Call): (o: Outcome<Body>)
    ensures IsAuthed(t) ==> o == Invoke(t, cfg, op, call)
    ensures !IsAuthed(t) && !HasDefaultLogin(creds) ==>
              o.result == Err(NotAuthenticated(NotLoggedInMessage)) && o.trace == []
    ensures |o.trace| <= 2
  {
    WithAuth(t, cfg, creds, authResponse, (tok: Tokens) => Invoke(tok, cfg, op, call))
  }

  // ---------------------------------------------------------------------------
  // Bulk handlers
  // ---------------------------------------------------------------------------

  /** The step the shared loop sees for one attempted item. */
  function StepOf<K>(id: K, o: Outcome<Body>): (s: Step<K>)
    ensures s.id == id && s.events == o.trace
    ensures s.failure.None? <==> o.result.Ok?
    ensures s.failure.Some? ==> s.failure.value == o.result.error
  {
    Step(id, o.trace, if o.result.Err? then Some(o.result.error) else None)
  }

  function StepsOf<K>(ids: seq<K>, outcomes: seq<Outcome<Body>>): (steps: seq<Step<K>>)
    requires |outcomes| == |ids|
    ensures |steps| == |ids|
    ensures forall i :: 0 <= i < |ids| ==> steps[i] == StepOf(ids[i], outcomes[i])
  {
    seq(|ids|, i requires 0 <= i < |ids| => StepOf(ids[i], outcomes[i]))
  }

  /**
   * How a bulk loop over `ids`, whose calls have the outcomes `os`, ends and what it does
   * on the way: it completes iff errors continue or every call succeeded; a completed run
   * posts each call in order, each followed by the pause; an aborted run stops right after
   * the failing item's call.
   */
  predicate ThrottledPolicy<K>(o: Outcome<Report<K>>, ids: seq<K>, os: seq<Outcome<Body>>,
                               delayMs: int, continueOnError: bool)
    requires |os| == |ids|
  {
    && o.result.Ok?
    && (o.result.value.Completed? <==> continueOnError || forall i :: 0 <= i < |ids| ==> os[i].result.Ok?)
    && (o.result.value.Completed? ==> o.trace == Throttled(StepsOf(ids, os), delayMs))
    && (o.result.value.Aborted? ==>
          && 1 <= o.result.value.attempted <= |ids|
          && o.trace == Throttled(StepsOf(ids, os)[..o.result.value.attempted - 1], delayMs)
                        + os[o.result.value.attempted - 1].trace)
  }

  /**
   * What a bulk report over `ids`, whose calls have the outcomes `os`, says about them: a
   * completed report has one entry per item, keyed by its id and ok iff its call succeeded,
   * with the counts adding up; an aborted one arises only when errors stop the run, and names
   * the first failing item.
   */
  ghost predicate ReportsPerItem<K>(rep: Report<K>, ids: seq<K>, os: seq<Outcome<Body>>, continueOnError: bool)
    requires |os| == |ids|
  {
    && (rep.Completed? ==>
          && rep.total == |ids| == |rep.results|
          && rep.success + rep.failure == rep.total
          && forall i :: 0 <= i < |ids| ==> rep.results[i].id == ids[i] && (rep.results[i].ok <==> os[i].result.Ok?))
    && (rep.Aborted? ==>
          var k := rep.attempted - 1;
          && !continueOnError
          && 0 <= k < |ids|
          && rep.abortedOn == ids[k]
          && os[k].result.Err?
          && forall j :: 0 <= j < k ==> os[j].result.Ok?)
  }

  /**
   * The loop both bulk handlers share, given what each item's domain call would do.
   * Only the attempted items' calls appear in the trace.
   */
  function BulkRun<K>(t: Tokens, lockId: int, ids: seq<K>, outcomes: seq<Outcome<Body>>,
                      delayMs: int, continueOnError: bool): (o: Outcome<Report<K>>)
    requires |outcomes| == |ids|
    ensures o.tokens == t && o.result.Ok? && o.result.value.lockId == lockId
    ensures var rep := o.result.value;
            rep.Completed? <==> continueOnError || forall i :: 0 <= i < |ids| ==> outcomes[i].result.Ok?
    ensures var rep := o.result.value;
            rep.Completed? ==>
              && rep.total == |ids| == |rep.results|
              && rep.success + rep.failure == rep.total
              && rep.success == CountOk(rep.results)
              && (forall i :: 0 <= i < |ids| ==>
                    rep.results[i].id == ids[i] && (rep.results[i].ok <==> outcomes[i].result.Ok?))
              && (forall i :: 0 <= i < |ids| && outcomes[i].result.Err? ==>
                    rep.results[i].error == Some(ErrorText(outcomes[i].result.error)))
              && o.trace == Throttled(StepsOf(ids, outcomes), delayMs)
    ensures var rep := o.result.value;
            rep.Aborted? ==>
              var k := rep.attempted - 1;
              && !continueOnError
              && 0 <= k < |ids|
              && |rep.results| == rep.attempted
              && rep.abortedOn == ids[k]
              && outcomes[k].result.Err?
              && rep.error == ErrorText(outcomes[k].result.error)
              && (forall j :: 0 <= j < k ==> outcomes[j].result.Ok? && rep.results[j].id == ids[j] && rep.results[j].ok)
              && !rep.results[k].ok
              && o.trace == Throttled(StepsOf(ids, outcomes)[..k], delayMs) + outcomes[k].trace
    ensures ReportsPerItem(o.result.value, ids, outcomes, continueOnError)
    ensures ThrottledPolicy(o, ids, outcomes, delayMs, continueOnError)
  {
    var run := RunBatch(lockId, StepsOf(ids, outcomes), delayMs, continueOnError);
    BulkRunShape(lockId, ids, outcomes, delayMs, continueOnError);
    if run.report.Completed? then
      BulkCompleted(lockId, ids, outcomes, delayMs, continueOnError);
      Outcome(Ok(run.report), t, run.trace)
    else
      BulkAborted(lockId, ids, outcomes, delayMs);
      Outcome(Ok(run.report), t, run.trace)
  }

  lemma BulkRunShape<K>(lockId: int, ids: seq<K>, outcomes: seq<Outcome<Body>>, delayMs: int, continueOnError: bool)
    requires |outcomes| == |ids|
    ensures RunBatch(lockId, StepsOf(ids, outcomes), delayMs, continueOnError).report.Completed?
            <==> continueOnError || forall i :: 0 <= i < |ids| ==> outcomes[i].result.Ok?
  {
    var steps := StepsOf(ids, outcomes);
    assert NoFailure(steps) <==> forall i :: 0 <= i < |ids| ==> outcomes[i].result.Ok?;
  }

  /** A completed bulk run, restated in terms of the items' own outcomes. */
  lemma BulkCompleted<K>(lockId: int, ids: seq<K>, outcomes: seq<Outcome<Body>>, delayMs: int, continueOnError: bool)
    requires |outcomes| == |ids|
    requires RunBatch(lockId, StepsOf(ids, outcomes), delayMs, continueOnError).report.Completed?
    ensures var rep := RunBatch(lockId, StepsOf(ids, outcomes), delayMs, continueOnError).report;
            && rep.total == |ids| == |rep.results|
            && rep.success + rep.failure == rep.total
            && rep.success == CountOk(rep.results)
            && (forall i :: 0 <= i < |ids| ==>
                  rep.results[i].id == ids[i] && (rep.results[i].ok <==> outcomes[i].result.Ok?))
            && (forall i :: 0 <= i < |ids| && outcomes[i].result.Err? ==>
                  rep.results[i].error == Some(ErrorText(outcomes[i].result.error)))
  {
  }

  /** An aborted bulk run, restated in terms of the items' own outcomes. */
  lemma BulkAborted<K>(lockId: int, ids: seq<K>, outcomes: seq<Outcome<Body>>, delayMs: int)
    requires |outcomes| == |ids|
    requires RunBatch(lockId, StepsOf(ids, outcomes), delayMs, false).report.Aborted?
    ensures var rep := RunBatch(lockId, StepsOf(ids, outcomes), delayMs, false).report;
            var k := rep.attempted - 1;
            && 0 <= k < |ids|
            && |rep.results| == rep.attempted
            && rep.abortedOn == ids[k]
            && outcomes[k].result.Err?
            && rep.error == ErrorText(outcomes[k].result.error)
            && (forall j :: 0 <= j < k ==> outcomes[j].result.Ok? && rep.results[j].id == ids[j] && rep.results[j].ok)
            && !rep.results[k].ok
  {
    var steps := StepsOf(ids, outcomes);
    var k := FirstFailure(steps);
    forall j | 0 <= j < k ensures outcomes[j].result.Ok? {
      assert steps[..k][j] == steps[j];
    }
  }

  /** One card of a `cards.bulkAdd` request. */
  datatype CardSpec = CardSpec(cardNumber: string, cardName: Option<string>, startDate: Option<int>, endDate: Option<int>)

  function AddOp(lockId: int, c: CardSpec): Op
  {
    AddCard(lockId, c.cardNumber, c.cardName, c.startDate, c.endDate)
  }

  function CardNumbers(cards: seq<CardSpec>): (ids: seq<string>)
    ensures |ids| == |cards|
    ensures forall i :: 0 <= i < |cards| ==> ids[i] == cards[i].cardNumber
  {
    seq(|cards|, i requires 0 <= i < |cards| => cards[i].cardNumber)
  }

  /** What adding each card would do, item i in the environment `calls(i)`. */
  function AddOutcomes(t: Tokens, cfg: Config, lockId: int, cards: seq<CardSpec>, calls: nat -> Call): (os: seq<Outcome<Body>>)
    ensures |os| == |cards|
  {
    seq(|cards|, i requires 0 <= i < |cards| => Invoke(t, cfg, AddOp(lockId, cards[i]), calls(i)))
  }

  /** Item i of `cards.bulkAdd` is the `addCardViaGateway` call for card i, made in `calls(i)`. */
  lemma AddOutcomesAreAddCalls(t: Tokens, cfg: Config, lockId: int, cards: seq<CardSpec>, calls: nat -> Call)
    ensures forall i :: 0 <= i < |cards| ==>
              AddOutcomes(t, cfg, lockId, cards, calls)[i] == Invoke(t, cfg, AddOp(lockId, cards[i]), calls(i))
  {
  }

  /** What deleting each card id would do. */
  function DeleteOutcomes(t: Tokens, cfg: Config, lockId: int, cardIds: seq<int>, deleteType: DeleteType,
                          calls: nat -> Call): (os: seq<Outcome<Body>>)
    ensures |os| == |cardIds|
  {
    seq(|cardIds|, i requires 0 <= i < |cardIds| => Invoke(t, cfg, DeleteCard(lockId, cardIds[i], Some(deleteType)), calls(i)))
  }

  /** Item i of `cards.bulkDelete` is the `deleteCard` call for id i, with the request's delete type, made in `calls(i)`. */
  lemma DeleteOutcomesAreDeleteCalls(t: Tokens, cfg: Config, lockId: int, cardIds: seq<int>, deleteType: DeleteType,
                                     calls: nat -> Call)
    ensures forall i :: 0 <= i < |cardIds| ==>
              DeleteOutcomes(t, cfg, lockId, cardIds, deleteType, calls)[i]
              == Invoke(t, cfg, DeleteCard(lockId, cardIds[i], Some(deleteType)), calls(i))
  {
  }

  /** The loop body of `cards.bulkAdd`; `calls(i)` is the environment of item i's call. */
  function BulkAddLoop(t: Tokens, cfg: Config, lockId: int, cards: seq<CardSpec>, calls: nat -> Call,
                       delayMs: int, continueOnError: bool): (o: Outcome<Report<string>>)
    ensures o.tokens == t && o.result.Ok? && o.result.value.lockId == lockId
    ensures ReportsPerItem(o.result.value, CardNumbers(cards), AddOutcomes(t, cfg, lockId, cards, calls), continueOnError)
    ensures ThrottledPolicy(o, CardNumbers(cards), AddOutcomes(t, cfg, lockId, cards, calls), delayMs, continueOnError)
  {
    var ids := CardNumbers(cards);
    var os := AddOutcomes(t, cfg, lockId, cards, calls);
    BulkRun(t, lockId, ids, os, delayMs, continueOnError)
  }

  /** The `cards.bulkAdd` tool. */
  function BulkAdd(t: Tokens, cfg: Config, creds: Credentials, authResponse: Response, lockId: int,
                   cards: seq<CardSpec>, calls: nat -> Call, delayMs: int, continueOnError: bool): (o: Outcome<Report<string>>)
    ensures o.result.Err? <==> EnsureAuth(t, cfg, creds, authResponse).result.Err?
    ensures IsAuthed(t) ==> o == BulkAddLoop(t, cfg, lockId, cards, calls, delayMs, continueOnError)
    ensures var g := EnsureAuth(t, cfg, creds, authResponse);
            var h := BulkAddLoop(g.tokens, cfg, lockId, cards, calls, delayMs, continueOnError);
            g.result.Ok? ==> o.tokens == g.tokens && o.result == h.result && o.trace == g.trace + h.trace
  {
    WithAuth(t, cfg, creds, authResponse,
             (tok: Tokens) => BulkAddLoop(tok, cfg, lockId, cards, calls, delayMs, continueOnError))
  }

  /** The loop body of `cards.bulkDelete`; the schema always supplies a delete type. */
  function BulkDeleteLoop(t: Tokens, cfg: Config, lockId: int, cardIds: seq<int>, deleteType: DeleteType,
                          calls: nat -> Call, delayMs: int, continueOnError: bool): (o: Outcome<Report<int>>)
    ensures o.tokens == t && o.result.Ok? && o.result.value.lockId == lockId
    ensures ReportsPerItem(o.result.value, cardIds, DeleteOutcomes(t, cfg, lockId, cardIds, deleteType, calls), continueOnError)
    ensures ThrottledPolicy(o, cardIds, DeleteOutcomes(t, cfg, lockId, cardIds, deleteType, calls), delayMs, continueOnError)
  {
    var os := DeleteOutcomes(t, cfg, lockId, cardIds, deleteType, calls);
    BulkRun(t, lockId, cardIds, os, delayMs, continueOnError)
  }

  /** The `cards.bulkDelete` tool. */
  function BulkDelete(t: Tokens, cfg: Config, creds: Credentials, authResponse: Response, lockId: int,
                      cardIds: seq<int>, deleteType: DeleteType, calls: nat -> Call,
                      delayMs: int, continueOnError: bool): (o: Outcome<Report<int>>)
    ensures o.result.Err? <==> EnsureAuth(t, cfg, creds, authResponse).result.Err?
    ensures IsAuthed(t) ==> o == BulkDeleteLoop(t, cfg, lockId, cardIds, deleteType, calls, delayMs, continueOnError)
    ensures var g := EnsureAuth(t, cfg, creds, authResponse);
            var h := BulkDeleteLoop(g.tokens, cfg, lockId, cardIds, deleteType, calls, delayMs, continueOnError);
            g.result.Ok? ==> o.tokens == g.tokens && o.result == h.result && o.trace == g.trace + h.trace
  {
    WithAuth(t, cfg, creds, authResponse,
             (tok: Tokens) => BulkDeleteLoop(tok, cfg, lockId, cardIds, deleteType, calls, delayMs, continueOnError))
  }

  // ---------------------------------------------------------------------------
  // cards.clear
  // ---------------------------------------------------------------------------

  /** What `cards.clear` replies: a refusal without `confirm`, or the remote body. */
  datatype ClearReply = Declined(error: string) | Cleared(body: Body)

  /** The `cards.clear` tool: the guard always runs; without `confirm` no clear request follows. */
  function CardsClear(t: Tokens, cfg: Config, creds: Credentials, authResponse: Response,
                      lockId: int, confirm: bool, call: Call): (o: Outcome<ClearReply>)
    ensures !confirm ==> o.trace == EnsureAuth(t, cfg, creds, authResponse).trace
    ensures !confirm && EnsureAuth(t, cfg, creds, authResponse).result.Ok? ==> o.result == Ok(Declined(ConfirmClearMessage))
    ensures confirm && IsAuthed(t) ==> o.trace == Invoke(t, cfg, ClearCards(lockId), call).trace
    ensures o.result.Ok? && o.result.value.Cleared? ==> confirm
    ensures var g := EnsureAuth(t, cfg, creds, authResponse);
            var h := ClearHandler(g.tokens, cfg, lockId, confirm, call);
            g.result.Ok? ==> o.result == h.result && o.tokens == h.tokens && o.trace == g.trace + h.trace
  {
    WithAuth(t, cfg, creds, authResponse, (tok: Tokens) => ClearHandler(tok, cfg, lockId, confirm, call))
  }

  function ClearHandler(t: Tokens, cfg: Config, lockId: int, confirm: bool, call: Call): (o: Outcome<ClearReply>)
    ensures !confirm ==> o == Outcome(Ok(Declined(ConfirmClearMessage)), t, [])
    ensures confirm ==> o.trace == Invoke(t, cfg, ClearCards(lockId), call).trace
    ensures confirm ==> o.tokens == t
    ensures var r := Invoke(t, cfg, ClearCards(lockId), call).result;
            && (confirm && r.Ok? ==> o.result == Ok(Cleared(r.value)))
            && (confirm && r.Err? ==> o.result == Err(r.error))
    ensures o.result.Ok? && o.result.value.Cleared? ==> confirm
  {
    if !confirm then
      Outcome(Ok(Declined(ConfirmClearMessage)), t, [])
    else
      var r := Invoke(t, cfg, ClearCards(lockId), call);
      match r.result
      case Ok(body) => Outcome(Ok(Cleared(body)), r.tokens, r.trace)
      case Err(e) => Outcome(Err(e), r.tokens, r.trace)
  }

  // ---------------------------------------------------------------------------
  // Properties of the guard
  // ---------------------------------------------------------------------------

  /** When already authenticated the guard is invisible: the tool is just its handler. */
  lemma GuardInvisibleWhenAuthed<T>(t: Tokens, cfg: Config, creds: Credentials, authResponse: Response,
                                    handler: Tokens -> Outcome<T>)
    requires IsAuthed(t)
    ensures WithAuth(t, cfg, creds, authResponse, handler) == handler(t)
  {
    assert [] + handler(t).trace == handler(t).trace;
  }

  /** The guard can succeed through a login whose body held no token, leaving the client unauthenticated. */
  lemma GuardCanPassUnauthenticated(t: Tokens, cfg: Config, creds: Credentials, body: Body)
    requires !IsAuthed(t) && HasDefaultLogin(creds)
    requires "access_token" !in body
    ensures EnsureAuth(t, cfg, creds, Received(body)).result.Ok?
    ensures !IsAuthed(EnsureAuth(t, cfg, creds, Received(body)).tokens)
  {
  }

  /** After such a guard every handler call fails before reaching the network. */
  lemma UnauthenticatedToolsIssueNoCall(t: Tokens, cfg: Config, creds: Credentials, body: Body, op: Op, call: Call)
    requires !IsAuthed(t) && HasDefaultLogin(creds)
    requires "access_token" !in body
    ensures var o := ToolCall(t, cfg, creds, Received(body), op, call);
            o.result == Err(NotAuthenticated(NoAccessTokenMessage)) &&
            o.trace == [Post(LoginRequest(cfg, creds.username.value, creds.passwordMd5.value))]
  {
  }

  /**
   * The auto-login does its job: when it returns a non-empty access token, the tool's call
   * follows the login and carries that token.
   */
  lemma AutoLoginThenCall(t: Tokens, cfg: Config, creds: Credentials, body: Body, token: string, op: Op, call: Call)
    requires !IsAuthed(t) && HasDefaultLogin(creds)
    requires Field(body, "access_token") == Some(Str(token)) && token != ""
    ensures var session := Tokens(Some(Str(token)), Field(body, "refresh_token"));
            var o := ToolCall(t, cfg, creds, Received(body), op, call);
            && IsAuthed(session)
            && o.result == Invoke(session, cfg, op, call).result
            && o.tokens == session
            && o.trace == [Post(LoginRequest(cfg, creds.username.value, creds.passwordMd5.value))]
                          + Invoke(session, cfg, op, call).trace
            && o.trace[1].request.form["accessToken"] == Str(token)
  {
  }

  /** A bulk item whose call is answered with an error code records the service's message for it. */
  lemma RemoteFailureIsRecorded<K>(t: Tokens, cfg: Config, id: K, op: Op, call: Call)
    requires IsAuthed(t) && call.response.Received? && IsErrorCoded(call.response.body)
    ensures var body := call.response.body;
            var e := EntryOf(StepOf(id, Invoke(t, cfg, op, call)));
            !e.ok && e.error == Some(RemoteMessage(body, body["errcode"].n))
  {
  }

  /**
   * The confirm flag is the only thing between the caller and wiping the lock's cards: with a
   * session held, `cards.clear` posts to the clear endpoint iff `confirm` is set, and reports
   * the cards cleared iff it is set and the service accepted the call.
   */
  lemma ClearOnlyWhenConfirmed(t: Tokens, cfg: Config, creds: Credentials, authResponse: Response,
                               lockId: int, confirm: bool, call: Call)
    requires IsAuthed(t)
    ensures var o := CardsClear(t, cfg, creds, authResponse, lockId, confirm, call);
            && |o.trace| == (if confirm then 1 else 0)
            && (confirm ==> o.trace[0] == Post(Request(cfg.base + "/v3/identityCard/clear", o.trace[0].request.form)))
            && (confirm ==> Decode(V3CardClear, o.trace[0].request.form) == Some(ClearCards(lockId)))
            && (o.result.Ok? && o.result.value.Cleared? <==> confirm && call.response.Received? && !IsErrorCoded(call.response.body))
            && (!confirm ==> o.result == Ok(Declined(ConfirmClearMessage)))
  {
  }

  /** Once authenticated, no tool changes the tokens: only login and refresh do. */
  lemma ToolsKeepSession(t: Tokens, cfg: Config, creds: Credentials, authResponse: Response, op: Op, call: Call)
    requires IsAuthed(t)
    ensures ToolCall(t, cfg, creds, authResponse, op, call).tokens == t
    ensures IsAuthed(ToolCall(t, cfg, creds, authResponse, op, call).tokens)
  {
  }
}

=== FILE: wrappers.dfy ===
/** Failure-carrying wrappers shared by every module of the model. */
module Wrappers {

  /** An optional value; `None` stands for JavaScript's `undefined`. */
  datatype Option<+T> = None | Some(value: T) {

    /** The wrapped value, or `default` when absent (JavaScript's `x ?? default`). */
    function GetOr(default: T): (r: T)
      ensures Some? ==> r == value
      ensures None? ==> r == default
    {
      match this
      case Some(v) => v
      case None => default
    }
  }

  /** Either a value or the error that was thrown instead of producing it. */
  datatype Result<+T, +E> = Ok(value: T) | Err(error: E)
}
